=== FILE: README.md ===
# Neko race: the per-frame race simulation

This project models the core of a browser side-scrolling race game (`game.js`).
A player picks a character, presses start, and races up to three scripted cat
opponents along a track 3000 wide. The track has boxes, floating platforms
and collectible items. The race ends on the first frame a racer reaches the
goal line at x = 2850.

The model is pure functions over immutable records. Positions and velocities
are `real`. The source's constants (0.8, 0.85, 0.1, 0.2, 15, 520, …) are exact
rationals, and JavaScript float rounding is abstracted away. Every
`Math.random` draw is an input. Opponent jumps are booleans. Spark, offset and
layout draws are reals. A draw missing from a supplied sequence reads as a
value the generator itself can return (`false`, or 0). So when every supplied
real draw lies in [0, 1) (`UnitDraws`, `Setup.UnitRaceDraws`), the input
describes a run the source can produce. Draws outside that range are accepted
but describe no real run.

Modules follow the game's components:

- `Catalog`: character definitions, the fallback table, lookup, and the
  "other characters" filter.
- `Entities`: player, opponent, obstacle, item, particle and world records,
  plus the game's constants.
- `Physics` (`updatePlayer`, `updateNPCs`): steering with friction, the
  edge-triggered jump with hold extension, the special ability and its
  cooldown, gravity with terminal speed, Euler integration, ground and
  world-bound clamps, and the opponents' variant.
- `Collision` (`isColliding`, `checkCollisions`): the strict box-overlap
  test, item pickup, and box/platform resolution in list order.
- `Camera` (`updateCamera`): exponential smoothing and the clamp.
- `Effects` (`createParticles`, `updateParticles`): particle bursts.
- `Ranking` (`checkGoal`): the first finisher, and the rank from a stable
  descending sort (an insertion sort; any stable sort gives the same order).
- `Setup` (`setupRace`, `generateObstacles`, `generateItems`).
- `Game`: the lifecycle (menu → playing → finished), `update`'s gate and
  composition, the race invariant, and multi-tick lemmas.
- `Scenarios`: a few concrete ticks.

Behaviour of the code worth knowing (the model follows it):

- The start button restarts a race from any phase, including after a finish.
  It does not reset `winner`, `playerRank`, the particles or the camera
  (`Game.PressStart`).
- Nothing waits for the catalog to load before a race can start. The
  `charactersLoaded` flag is set but never read.
- An opponent's jump sets vy to −12, not −15. Its ground flag is forced on
  before the jump test, so a jump draw launches it even in mid-air. Its x is
  clamped to the canvas width, not the world's. On a canvas narrower than
  2880 no opponent can reach the goal, so only the player can win
  (`Physics.UpdateNpcs`, `Game.Update`).
- The platform test uses the player's y after this tick's move. A player
  whose top has already sunk past the platform's top falls through
  (`Scenarios.SunkPlayerFallsThroughPlatform`). The ground flag is never
  cleared by walking off a platform. So the ground flag does not imply vy = 0
  except right after a clamp, and the player can start a jump in mid-air
  (`Scenarios.WalkingOffAPlatformKeepsTheGroundFlag`).
- Particles from the ability age once in the tick that spawns them (they are
  spawned before `updateParticles`). Item particles do not age in their
  spawning tick (they are spawned after it).

## Model

| member | source | states |
|---|---|---|
| `Catalog.Fallback` | game.js:61-72 | the fallback table has six entries with distinct keys and positive top speeds and accelerations |
| `Catalog.Lookup` | game.js:116 | `characters[key]` is found exactly when some entry carries the key, and the result is that entry's character |
| `Catalog.Others` | game.js:131 | every kept entry is a catalog entry whose key differs from the selection, and every such entry is kept |
| `Catalog.OthersAbsent` | game.js:131 | filtering out a key no entry carries keeps the whole catalog, in order |
| `Catalog.OthersSplit` | game.js:131 | the filter works entry by entry: filtering a concatenation concatenates the filtered parts |
| `Catalog.OthersSkips` | game.js:131-134 | with distinct keys, the other characters are the catalog with the selected entry cut out, the rest in catalog order |
| `Catalog.OthersCount` | game.js:131 | with distinct keys, filtering out a present key drops exactly one entry, and filtering out an absent key drops none |
| `RealMath.JsClamp` | game.js:299 | `Math.max(lo, Math.min(hi, v))` lies in [lo, hi] when lo ≤ hi, is v inside the range, otherwise the nearer bound; with crossed bounds it is lo |
| `Physics.Steer` | game.js:230-247 | left subtracts exactly the acceleration, or stops at −maxSpeed if that would pass it; right (when left is not held) adds it, or stops at maxSpeed; so vx stays in [−maxSpeed, maxSpeed]; with no key, vx becomes 0.8·vx on the ground or 0.85·vx in the air, keeping its sign and never growing in magnitude |
| `Physics.HoldRightReachesTop` | game.js:235-239 | holding right never passes top speed, and reaches it once ticks × acceleration cover the gap |
| `Physics.Jump` | game.js:249-266 | a jump starts iff the key is held, the latch is clear and the player is grounded; it then leaves vy = −15.8 and jumpTime = 1; a hold adds −0.8 and one use while fewer than 20 are used and vy < 0; a released key clears the latch; only the jump fields change |
| `Physics.Bonus` | game.js:375-384 | only mischief and fashion score, and no ability scores negatively (the amounts, 50 and 30, are the body's) |
| `Physics.Special` | game.js:268-276 | the ability fires iff Shift is held and cooldown ≤ 0; firing adds the ability's score, appends the burst at the player and leaves cooldown 179; otherwise score and particles are untouched and a positive cooldown counts down; it never goes negative |
| `Physics.Fallen` | game.js:279-284 | gravity adds 0.8 to vy, and the result never exceeds the terminal 15 |
| `Physics.Fall` | game.js:286-299 | after the step vy ≤ 15, y ≤ 520 and x ∈ [0, 2970]; when the ground clamp fires, y = 520, vy = 0, grounded and the latch is clear; otherwise y advanced by the new vy |
| `Physics.UpdatePlayer` | game.js:226-300 | one player tick keeps the speed bound, vy ≤ 15, y ≤ 520 and x in the world; a jump-start tick ends with vy = −15 and jumpTime = 1; the ability/cooldown facts hold; vx is the steered speed and x the clamped sum of old x and new vx; after the jump step, a landing tick ends on the ground with vy = 0 and the latch released, and any other tick applies capped gravity, moves y by the new vy and keeps the ground flag and latch the jump step left; the rest of the world is unchanged; the player bounds are an invariant |
| `Physics.UpdateNpc` | game.js:316-355 | an opponent ends with vy ≤ 15 and y ≤ 520; vx rises by exactly 0.2, or is capped at 0.8·maxSpeed; x advances by the new vx and is then clamped to exactly 0 or canvasWidth − 30 when it leaves [0, canvasWidth − 30]; a jump draw gives vy = −11.2, y advanced by it, and airborne even in mid-air; with no jump draw it lands or falls as the player does and is grounded after the tick |
| `Physics.UpdateNpcs` | game.js:315-356 | each opponent takes its own tick with its own draw; on a canvas narrower than 2880 no opponent reaches the goal |
| `Collision.TouchesIffSharedPoint` | game.js:442-447 | for boxes of positive size, the strict four-edge test holds exactly when the two open boxes share a point |
| `Collision.CountPickable` | game.js:412 | no more items are picked than there are |
| `Collision.CollectItems` | game.js:411-417 | an item ends collected iff it was collected or the player touches it; nothing else about it changes; the score gain is 100 per pickable item and 8 life-30 gold particles are spawned per pickup, each at the centre of a pickable item |
| `Collision.CollectItemsIdempotent` | game.js:411-417 | rerunning the item pass on its result changes nothing and scores nothing |
| `Collision.Resolve` | game.js:420-438 | no hit, no change; a box hit zeroes vx, puts x at box.x − 30 when moving right or box.x + width when moving left, and changes nothing else; a platform acts only when vy > 0 and y < top, snapping y to top − 30 with vy 0, grounded and latch clear; a moving box hit or a landing leaves no overlap |
| `Collision.ResolveIdempotent` | game.js:420-438 | resolving the same obstacle twice equals resolving it once |
| `Collision.ResolveAll` | game.js:419-439 | the pass leaves character, cooldown and jumpTime alone; with no obstacle hit the player is unchanged; on a generated-style layout the player bounds survive |
| `Collision.ResolveAllOne` | game.js:419-439 | a pass over a single obstacle applies exactly that obstacle's box or platform rule |
| `Collision.ResolveAllSplit` | game.js:419-439 | the pass over `a + b` runs `a` first and then `b` on the player `a` left, so obstacles act in list order |
| `Collision.CheckCollisions` | game.js:410-440 | the score grows by 100 per pickup; collected items stay collected; particles only get appended, with life 30; the player is the obstacle pass's result |
| `Camera.Ease` | game.js:305-309 | the camera moves exactly a tenth of the way to the target, stays between its old value and the target, and 0.9 of the distance remains |
| `Camera.UpdateCamera` | game.js:302-313 | when the canvas is no wider than the world, the camera is the eased value inside [0, worldWidth − canvasWidth], 0 below that range and worldWidth − canvasWidth above it; on a wider canvas it is 0 |
| `Camera.FollowSettles` | game.js:302-313 | with camera and target inside the range, after n ticks 0.9ⁿ of the distance remains and the camera stays in range |
| `Effects.Jitter` | game.js:402-403 | a draw in [0, 1) gives a particle velocity component in [−3, 3), and the draw can be read back from the component |
| `Effects.Burst` | game.js:397-408 | a burst is 8 particles at the centre of the 30 × 30 box, in the given colour, with life 30; particle j's velocity comes from draws 2j and 2j+1, which can be read back from it, and lies in [−3, 3) for draws in [0, 1) |
| `Effects.Rewind` | game.js:359-363 | undoing a particle's move and ageing gives back the particle that advances to it |
| `Effects.UpdateParticles` | game.js:358-365 | every surviving particle has life > 0 and is an input particle moved and aged by one; every input particle with life > 1 survives; none are created |
| `Effects.UpdateParticlesOne` | game.js:359-364 | one particle becomes its moved and aged self when life is left, and disappears otherwise |
| `Effects.UpdateParticlesSplit` | game.js:358-365 | the filter keeps order: updating a concatenation concatenates the updated parts, so with the one-particle rule the result is fixed |
| `Effects.Fades` | game.js:358-365 | live particles whose life is at most n are all gone after n ticks |
| `Ranking.FirstFinisher` | game.js:209-214 | no finisher iff every racer is short of the goal; otherwise the first racer in scan order at or past it |
| `Ranking.Insert` | game.js:221 | inserting adds exactly the one racer |
| `Ranking.InsertStable` | game.js:221 | inserting a later-listed racer into a stably sorted sequence keeps it sorted by x descending with ties in list order |
| `Ranking.SortDesc` | game.js:221 | the sort is a permutation, sorted by x descending, and stable (ties keep list order) |
| `Ranking.CountAbove` | game.js:221-222 | counts at most every racer, and counts none exactly when no racer is strictly ahead |
| `Ranking.FindPlayer` | game.js:222 | `findIndex` gives the first index holding the player, or −1 exactly when the player is absent |
| `Ranking.CountSplit` | game.js:221-222 | the count of racers strictly ahead adds up over a concatenation |
| `Ranking.CountPermuted` | game.js:221-222 | any reordering of the racers, the sort included, keeps the number strictly ahead of x |
| `Ranking.InsertPlayerPosition` | game.js:221-222 | inserting the player into sorted opponents places it right after those strictly ahead: it wins every tie |
| `Ranking.RankCountsRivalsAhead` | game.js:220-222 | the rank is 1 + the number of opponents strictly ahead, so it lies in [1, 1 + npcs]; it is 1 exactly when no opponent is further along |
| `Ranking.Judge` | game.js:205-224 | the race is won iff some racer is at or past the goal; the player wins iff it is; an opponent wins only if the player is short and every earlier opponent is short; the rank is the sorted one |
| `Setup.StartingPlayer` | game.js:115-128 | the player starts at (50, 300) at rest, grounded, with no cooldown, no latch and no jump uses |
| `Setup.SpawnNpcs` | game.js:133-148 | slot i holds the i-th other character (when its key is non-empty), at rest and grounded, at y = 330 + 30i and x ∈ [50, 80); at most three spawn |
| `Setup.Opponents` | game.js:130-148 | at most three opponents; with distinct non-empty keys and a present selection, exactly min(3, catalog − 1), carrying the other characters in catalog order |
| `Setup.OpponentsInCatalogOrder` | game.js:130-148 | with distinct non-empty keys, opponent j has the character of the j-th catalog entry once the selected one is cut out |
| `Setup.GenerateObstacles` | game.js:154-176 | 15 30 × 30 boxes at y = 490 with box i's x in [400 + 200i, 480 + 200i), then 10 80 × 20 platforms at y ∈ [350, 450); the layout keeps a resolved player in the world |
| `Setup.KindOf` | game.js:186 | `Math.floor(r * 3)` picks speed, jump or star by third |
| `Setup.GenerateItems` | game.js:178-190 | 20 uncollected 20 × 20 items, item i at x ∈ [250 + 150i, 300 + 150i) and y ∈ [250, 450) |
| `Setup.SetupRace` | game.js:114-152 | a race is set up exactly when the key is in the catalog; it has the starting player for that character, at most three opponents at rest on or above the ground, 25 obstacles, 20 uncollected items and score 0, carries particles and camera over, and with genuine draws its layout keeps a resolved player in the world |
| `Game.NewGame` | game.js:2-31 | a new game sits in the menu with no selection, no race, no winner and rank 0 |
| `Game.NewGameOk` | game.js:2-31 | a new game over a loaded catalog (distinct, non-empty keys and sane characters) satisfies the game invariant |
| `Game.FallbackOk` | game.js:61-72 | the fallback table is a loaded catalog in that sense |
| `Game.PressStart` | game.js:97-112 | without a selection nothing changes; with one present in the catalog the game plays with score 0 and a fresh race, from any phase, keeping everything else |
| `Game.PressStartOpponentCount` | game.js:130-148 | with a loaded catalog, the start button fields exactly min(3, catalog − 1) opponents |
| `Game.Select` | game.js:89-94 | a character button makes its key the selection, in any phase, and changes nothing else |
| `Game.StartFromMenu` | game.js:89-112 | from a new game, clicking a character in the catalog and then start begins a race for it with no particles, the camera at 0 and no winner |
| `Game.PressStartKeepsGameOk` | game.js:107-152 | starting with genuine random draws establishes the race invariant |
| `Game.Step` | game.js:197-201 | a tick runs in `update`'s order: the obstacle pass acts on the stepped player, the camera follows the stepped player before collisions, and the item sparks are appended after the existing particles age; it keeps the obstacles, updates the opponents, never lowers the score, never un-collects an item, and takes cooldown and jumpTime from the player step |
| `Game.StepKeepsRaceOk` | game.js:197-201 | a tick preserves the race invariant: player bounds, layout, opponent bounds, particle lives in [1, 30] and the camera range |
| `Game.Update` | game.js:192-203 | nothing changes unless playing; a playing game finishes iff some racer reaches the goal, and then records a winner (the player iff it reached the goal) and a rank in [1, 1 + npcs] that is 1 iff no opponent is ahead, exactly the verdict and rank the goal check gives on the stepped world; on a narrow canvas only the player can win |
| `Game.UpdateKeepsGameOk` | game.js:192-203 | a frame keeps the game invariant |
| `Game.FinishedIsFrozen` | game.js:193 | after a finish, no run of frames changes anything |
| `Game.ShiftIgnoredOnce` | game.js:268-276 | on a tick with cooldown left, Shift makes no difference and the cooldown drops by one |
| `Game.CooldownCountsDown` | game.js:268-276 | during a run no longer than the remaining cooldown, the cooldown counts down by one per tick whatever the keys |
| `Game.ShiftIgnoredWhileCooling` | game.js:268-276 | during a run no longer than the remaining cooldown, pressing Shift changes nothing at all |
| `Game.ExtensionsBounded` | game.js:252-262 | between jump starts the hold push is applied at most 20 − jumpTime more times, and each push uses one jumpTime |
| `Scenarios.BoxStopsPlayer` | game.js:431-436 | a right-moving player at 371 hitting a box at 400 ends at 370 with vx 0 |
| `Scenarios.SunkPlayerFallsThroughPlatform` | game.js:423 | a falling player whose top is below the platform's top is not caught |
| `Scenarios.FallingPlayerLandsOnPlatform` | game.js:423-428 | a falling player above the platform's top lands at top − 30 |
| `Scenarios.CameraFirstStep` | game.js:305-312 | player 1000, canvas 900, camera 0 gives camera 70 |
| `Scenarios.WalkingOffAPlatformKeepsTheGroundFlag` | game.js:242-296 | the ground flag survives a fall, so a jump can start in mid-air |
| `Scenarios.OpponentJumpsInMidAir` | game.js:320-332 | an airborne opponent still jumps on a jump draw |

## Left out

- Canvas rendering (`draw*`, game.js:449-737) is presentation only.
- The DOM event plumbing, the button highlighting and `alert` are left out
  (game.js:74-105). Keys arrive as a per-tick `Keys` record. A character
  button's click is `Game.Select`, and the start click is `Game.PressStart`.
- `loadCharacters` (`fetch` and JSON parsing) is network I/O. The catalog is a
  parameter of `Game.NewGame`, and the fallback table is `Catalog.Fallback`.
  A loaded entry's description, and every entry's x/y, are not kept.
- `Date.now` and `elapsedTime` are wall-clock, and the time shown at the finish
  depends on them.
- `requestAnimationFrame` scheduling is left out. A run of frames is `Game.Play`.
- `Math.random` is not modelled as a generator. Every draw is an input.
- Physics.Special: the leader, night and baby abilities multiply the undefined
  `player.speed` (giving NaN) and revert it with `setTimeout`. Neither touches
  the modelled state, so they have no effect here.
- Physics.Special: the steady ability assigns the undefined `player.speed` to
  vx. That makes vx, and then x, NaN in JavaScript. NaN has no `real`
  counterpart, so the model gives steady no kinematic effect.
- Game.PressStart: if the selected key is not in the catalog, the source
  spreads `undefined` and starts a race whose player has no stats. The model
  leaves the game unchanged instead.
- Setup.SetupRace: for a key missing from the catalog it returns no race,
  where the source spreads `undefined` into a player without stats. It is
  the same gap as `Game.PressStart`'s.
- Game.Select: the label next to the buttons (`characters[key].name`, which
  throws for a missing key after the selection is already stored) is
  presentation and is left out.
- Game.CatalogOk: the invariant takes keys to be non-empty. The fallback and
  the rows the database seeds all have non-empty keys, but the table's
  `NOT NULL` does not forbid an empty key. Distinct keys hold for every loaded
  catalog, because the catalog is one object keyed by `character_key`.
- `maxJumpTime` (20), `friction` (0.85) and `groundFriction` (0.8) are player
  fields that setupRace sets and nothing changes. They are constants here.
- The `!npc.vx` / `!npc.vy` resets only matter for undefined or NaN values,
  which the model has none of.
- JavaScript float rounding and NaN are abstracted away. All arithmetic is
  exact.
- No lemma states determinism: every step is a pure function of its inputs
  and draws.
- database/db.js (SQL over a Postgres client) and server.js (HTTP routing)
  are storage and transport, with nothing in the race loop.

=== FILE: camera.dfy ===
/** The camera: exponential smoothing of the viewport's left edge toward a point a
    third of the canvas behind the player, kept inside the world. */
module Camera {
  import opened RealMath
  import opened Entities

  /** Fraction of the remaining distance covered per tick. */
  const Easing: real := 0.1

  /** Where the camera heads: the player a third of the canvas from the left edge. */
  function Target(playerX: real, canvasWidth: real): real {
    playerX - canvasWidth / 3.0
  }

  /** One smoothing step: a tenth of the way toward the target, never past it. */
  function Ease(cam: real, target: real): (r: real)
    ensures r - cam == Easing * (target - cam)
    ensures Min(cam, target) <= r <= Max(cam, target)
    ensures Abs(target - r) == (1.0 - Easing) * Abs(target - cam)
  {
    cam + (target - cam) * Easing
  }

  /** `updateCamera`: smooth toward the target, then clamp to [0, worldWidth - canvasWidth]. */
  function UpdateCamera(cam: real, playerX: real, canvasWidth: real): (r: real)
    ensures canvasWidth <= WorldWidth ==> 0.0 <= r <= WorldWidth - canvasWidth
    ensures 0.0 <= Ease(cam, Target(playerX, canvasWidth)) <= WorldWidth - canvasWidth ==>
      r == Ease(cam, Target(playerX, canvasWidth))
    ensures canvasWidth <= WorldWidth && Ease(cam, Target(playerX, canvasWidth)) < 0.0 ==> r == 0.0
    ensures canvasWidth <= WorldWidth && Ease(cam, Target(playerX, canvasWidth)) > WorldWidth - canvasWidth ==>
      r == WorldWidth - canvasWidth
    ensures canvasWidth > WorldWidth ==> r == 0.0
  {
    JsClamp(Ease(cam, Target(playerX, canvasWidth)), 0.0, WorldWidth - canvasWidth)
  }

  /** `n` ticks of camera updates with the player standing still. */
  function Follow(cam: real, playerX: real, canvasWidth: real, n: nat): real
    decreases n
  {
    if n == 0 then cam else Follow(UpdateCamera(cam, playerX, canvasWidth), playerX, canvasWidth, n - 1)
  }

  /** `d` after `n` shrinks by the factor 0.9 (that is, 0.9^n * d). */
  function Decay(d: real, n: nat): real
    decreases n
  {
    if n == 0 then d else Decay((1.0 - Easing) * d, n - 1)
  }

  /** With the camera and its target inside the world's camera range, every tick
      removes exactly a tenth of the remaining distance, so after `n` ticks 0.9^n
      of it is left, and the camera stays in range. */
  lemma {:induction false} FollowSettles(cam: real, playerX: real, canvasWidth: real, n: nat)
    requires 0.0 <= cam <= WorldWidth - canvasWidth
    requires 0.0 <= Target(playerX, canvasWidth) <= WorldWidth - canvasWidth
    ensures Abs(Target(playerX, canvasWidth) - Follow(cam, playerX, canvasWidth, n)) ==
      Decay(Abs(Target(playerX, canvasWidth) - cam), n)
    ensures 0.0 <= Follow(cam, playerX, canvasWidth, n) <= WorldWidth - canvasWidth
    decreases n
  {
    if n > 0 {
      var t := Target(playerX, canvasWidth);
      var next := UpdateCamera(cam, playerX, canvasWidth);
      assert next == Ease(cam, t);
      FollowSettles(next, playerX, canvasWidth, n - 1);
    }
  }
}

=== FILE: catalog.dfy ===
/** The character catalog: the read-only table of character definitions a race is
    built from, either loaded from the server or the built-in fallback table. */
module Catalog {
  import opened Options

  /** Ability tags. `Untagged` stands for any tag a loaded catalog may carry that
      the ability switch does not know; such a character's ability does nothing. */
  datatype Ability = Leader | Mischief | Night | Fashion | Steady | Baby | Untagged

  /** One catalog entry's character fields (the description of a loaded entry is
      display text and is not kept). */
  datatype Character = Character(
    name: string,
    color: string,
    ability: Ability,
    maxSpeed: real,
    acceleration: real)

  /** A catalog entry under its character key. The catalog is an object keyed by
      character key, so its keys are distinct and come in `Object.keys` order
      (insertion order for non-numeric keys). */
  datatype Entry = Entry(key: string, character: Character)

  /** The stats every catalog row carries: non-negative top speed and acceleration. */
  predicate Sane(c: Character) {
    c.maxSpeed >= 0.0 && c.acceleration >= 0.0
  }

  predicate DistinctKeys(cat: seq<Entry>) {
    forall i, j :: 0 <= i < j < |cat| ==> cat[i].key != cat[j].key
  }

  /** The built-in table used when the server's catalog cannot be fetched. (Its
      per-entry starting x/y are overwritten when a race is set up and are not kept.) */
  function Fallback(): (cat: seq<Entry>)
    ensures |cat| == 6
    ensures DistinctKeys(cat)
    ensures forall i :: 0 <= i < |cat| ==>
      Sane(cat[i].character) && cat[i].character.maxSpeed > 0.0 && cat[i].character.acceleration > 0.0
  {
    [ Entry("shirotama", Character("しろたまちゃん", "#FFFFFF", Leader, 5.0, 0.5)),
      Entry("chatarou", Character("ちゃたろう", "#D2691E", Mischief, 6.0, 0.6)),
      Entry("kuromame", Character("くろまめ", "#000000", Night, 5.5, 0.4)),
      Entry("mikemi", Character("みけみ", "#FF8C00", Fashion, 4.8, 0.7)),
      Entry("shio", Character("しお", "#808080", Steady, 4.5, 0.3)),
      Entry("tama", Character("たま", "#F5F5DC", Baby, 5.8, 0.8)) ]
  }

  /** The character stored under `key`, if any (`characters[key]`). */
  function Lookup(cat: seq<Entry>, key: string): (r: Option<Character>)
    ensures r.None? <==> forall i :: 0 <= i < |cat| ==> cat[i].key != key
    ensures r.Some? ==> Entry(key, r.value) in cat
  {
    if cat == [] then None
    else if cat[0].key == key then Some(cat[0].character)
    else Lookup(cat[1..], key)
  }

  /** The entries whose key differs from `key`, in catalog order
      (`Object.keys(characters).filter(k => k !== key)`). */
  function Others(cat: seq<Entry>, key: string): (r: seq<Entry>)
    ensures forall i :: 0 <= i < |r| ==> r[i].key != key && r[i] in cat
    ensures forall e :: e in cat && e.key != key ==> e in r
    ensures |r| <= |cat|
  {
    if cat == [] then []
    else if cat[0].key == key then Others(cat[1..], key)
    else [cat[0]] + Others(cat[1..], key)
  }

  /** With distinct keys, filtering out a key that is present drops exactly one
      entry, and filtering out an absent key drops none. */
  lemma OthersCount(cat: seq<Entry>, key: string)
    requires DistinctKeys(cat)
    ensures Lookup(cat, key).Some? ==> |Others(cat, key)| == |cat| - 1
    ensures Lookup(cat, key).None? ==> Others(cat, key) == cat
  {
    if Lookup(cat, key).Some? {
      var k :| 0 <= k < |cat| && cat[k].key == key;
      OthersSkips(cat, key, k);
    } else {
      OthersAbsent(cat, key);
    }
  }

  /** Filtering out a key that no entry carries keeps the whole catalog, in order. */
  lemma {:induction false} OthersAbsent(cat: seq<Entry>, key: string)
    requires forall i :: 0 <= i < |cat| ==> cat[i].key != key
    ensures Others(cat, key) == cat
  {
    if cat != [] {
      assert forall i :: 0 <= i < |cat[1..]| ==> cat[1..][i] == cat[i + 1];
      OthersAbsent(cat[1..], key);
      assert cat == [cat[0]] + cat[1..];
    }
  }

  /** The filter works entry by entry: filtering a concatenation filters each part. */
  lemma {:induction false} OthersSplit(a: seq<Entry>, b: seq<Entry>, key: string)
    ensures Others(a + b, key) == Others(a, key) + Others(b, key)
    decreases |a|
  {
    if a == [] {
      assert a + b == b;
    } else {
      assert (a + b)[0] == a[0] && (a + b)[1..] == a[1..] + b;
      OthersSplit(a[1..], b, key);
    }
  }

  /** With distinct keys, no entry before or after the one holding `key` carries it. */
  lemma OthersAround(cat: seq<Entry>, key: string, k: nat)
    requires DistinctKeys(cat) && k < |cat| && cat[k].key == key
    ensures Others(cat[..k], key) == cat[..k]
    ensures Others(cat[k + 1..], key) == cat[k + 1..]
  {
    var before, after := cat[..k], cat[k + 1..];
    assert forall i :: 0 <= i < |before| ==> before[i] == cat[i];
    OthersAbsent(before, key);
    assert forall i :: 0 <= i < |after| ==> after[i] == cat[k + 1 + i];
    OthersAbsent(after, key);
  }

  /** With distinct keys, the other characters are the catalog with the selected
      entry cut out and the rest in catalog order: that order decides which
      characters fill the opponent slots. */
  lemma OthersSkips(cat: seq<Entry>, key: string, k: nat)
    requires DistinctKeys(cat) && k < |cat| && cat[k].key == key
    ensures Others(cat, key) == cat[..k] + cat[k + 1..]
  {
    var before, after := cat[..k], cat[k + 1..];
    assert cat == before + ([cat[k]] + after);
    OthersAround(cat, key, k);
    assert Others([cat[k]] + after, key) == Others(after, key);
    OthersSplit(before, [cat[k]] + after, key);
  }
}

=== FILE: collision.dfy ===
/** Collision resolution for the player (opponents never collide): item pickups
    first, then each obstacle in list order. */
module Collision {
  import opened RealMath
  import opened Entities
  import Effects
  import opened Physics

  /** `isColliding`: the racer's 30 x 30 box with corner (x, y) and the box
      (ox, oy, ow, oh) overlap, compared strictly on all four edges. */
  predicate Touches(x: real, y: real, ox: real, oy: real, ow: real, oh: real) {
    && x < ox + ow
    && x + Size > ox
    && y < oy + oh
    && y + Size > oy
  }

  /** Point (qx, qy) lies strictly inside the box with corner (x, y). */
  predicate Inside(qx: real, qy: real, x: real, y: real, w: real, h: real) {
    x < qx < x + w && y < qy < y + h
  }

  /** For boxes of positive size, the strict edge test holds exactly when the two
      open boxes share a point. */
  lemma TouchesIffSharedPoint(x: real, y: real, ox: real, oy: real, ow: real, oh: real)
    requires ow > 0.0 && oh > 0.0
    ensures Touches(x, y, ox, oy, ow, oh) <==>
      exists qx: real, qy: real :: Inside(qx, qy, x, y, Size, Size) && Inside(qx, qy, ox, oy, ow, oh)
  {
    if Touches(x, y, ox, oy, ow, oh) {
      var qx := (Max(x, ox) + Min(x + Size, ox + ow)) / 2.0;
      var qy := (Max(y, oy) + Min(y + Size, oy + oh)) / 2.0;
      assert Inside(qx, qy, x, y, Size, Size) && Inside(qx, qy, ox, oy, ow, oh);
    }
  }

  // ---------------------------------------------------------------- items

  /** The colour of an item-pickup burst. */
  const Gold: string := "#FFD700"

  predicate TouchesItem(p: Player, it: Item) {
    Touches(p.x, p.y, it.x, it.y, it.width, it.height)
  }

  /** An item is picked up when it is still on the track and the player touches it. */
  predicate Pickable(p: Player, it: Item) {
    !it.collected && TouchesItem(p, it)
  }

  /** The number of items the player picks up this tick. */
  function CountPickable(p: Player, items: seq<Item>): (n: nat)
    ensures n <= |items|
  {
    if items == [] then 0
    else (if Pickable(p, items[0]) then 1 else 0) + CountPickable(p, items[1..])
  }

  /** The outcome of the item pass: the items after it, the points won and the
      particles spawned, in item order. */
  datatype Pickup = Pickup(items: seq<Item>, points: int, sparks: seq<Particle>)

  /** The spark draws for the first item of `bursts`, and those for the others. */
  function FirstBurst(bursts: seq<seq<real>>): seq<real> {
    if bursts == [] then [] else bursts[0]
  }

  function LaterBursts(bursts: seq<seq<real>>): seq<seq<real>> {
    if bursts == [] then [] else bursts[1..]
  }

  /** A spark starts at the centre of the item's 30 x 30 box. */
  predicate CentredOn(s: Particle, it: Item) {
    s.x == it.x + Size / 2.0 && s.y == it.y + Size / 2.0
  }

  /** The item pass: every pickable item is marked collected (for good), scores
      100 and spawns a gold burst at the item; every other item stays as it was. */
  function CollectItems(p: Player, items: seq<Item>, bursts: seq<seq<real>>): (r: Pickup)
    ensures |r.items| == |items|
    ensures forall i :: 0 <= i < |items| ==> r.items[i].(collected := items[i].collected) == items[i]
    ensures forall i :: 0 <= i < |items| ==> (r.items[i].collected <==> items[i].collected || TouchesItem(p, items[i]))
    ensures r.points == ItemPoints * CountPickable(p, items)
    ensures |r.sparks| == BurstSize * CountPickable(p, items)
    ensures forall j :: 0 <= j < |r.sparks| ==> r.sparks[j].life == ParticleLife && r.sparks[j].color == Gold
    ensures forall j :: 0 <= j < |r.sparks| ==> exists i :: 0 <= i < |items| && Pickable(p, items[i]) && CentredOn(r.sparks[j], items[i])
  {
    if items == [] then Pickup([], 0, [])
    else
      var rest := CollectItems(p, items[1..], LaterBursts(bursts));
      var it := items[0];
      assert forall i :: 1 <= i < |items| ==> items[i] == items[1..][i - 1];
      if Pickable(p, it) then
        var burst := Effects.Burst(it.x, it.y, Gold, FirstBurst(bursts));
        Pickup([it.(collected := true)] + rest.items, rest.points + ItemPoints, burst + rest.sparks)
      else
        Pickup([it] + rest.items, rest.points, rest.sparks)
  }

  /** Re-running the item pass on its own result changes nothing: a collected item
      never scores or sparks again. */
  lemma {:induction false} CollectItemsIdempotent(p: Player, items: seq<Item>, bursts: seq<seq<real>>, again: seq<seq<real>>)
    ensures var once := CollectItems(p, items, bursts).items;
      CollectItems(p, once, again) == Pickup(once, 0, [])
  {
    if items != [] {
      CollectItemsIdempotent(p, items[1..], LaterBursts(bursts), LaterBursts(again));
      var once := CollectItems(p, items, bursts).items;
      assert once[1..] == CollectItems(p, items[1..], LaterBursts(bursts)).items;
      assert !Pickable(p, once[0]);
    }
  }

  // ---------------------------------------------------------------- obstacles

  predicate Hits(p: Player, ob: Obstacle) {
    Touches(p.x, p.y, ob.x, ob.y, ob.width, ob.height)
  }

  /** A platform carries the player when it is hit while the player falls and the
      player's top is still above the platform's top. */
  predicate LandsOn(p: Player, ob: Obstacle) {
    ob.Platform? && Hits(p, ob) && p.vy > 0.0 && p.y < ob.y
  }

  /** Resolve one obstacle. A box stops the player against the side it moves
      into; a platform snaps a falling player onto its top. */
  function Resolve(p: Player, ob: Obstacle): (r: Player)
    ensures !Hits(p, ob) ==> r == p
    ensures ob.Box? && Hits(p, ob) ==>
      && r.vx == 0.0
      && (p.vx > 0.0 ==> r.x == ob.x - Size)
      && (p.vx < 0.0 ==> r.x == ob.x + ob.width)
      && (p.vx == 0.0 ==> r.x == p.x)
      && r.(x := p.x, vx := p.vx) == p
    ensures LandsOn(p, ob) ==>
      && r.y == ob.y - Size && r.vy == 0.0 && r.onGround && !r.jumpPressed
      && r.(y := p.y, vy := p.vy, onGround := p.onGround, jumpPressed := p.jumpPressed) == p
    ensures ob.Platform? && !LandsOn(p, ob) ==> r == p
    ensures (ob.Box? && p.vx != 0.0) || LandsOn(p, ob) ==> !Hits(r, ob)
  {
    if !Hits(p, ob) then p
    else match ob
      case Platform(_, _, _, _) =>
        if p.vy > 0.0 && p.y < ob.y
        then p.(y := ob.y - Size, vy := 0.0, onGround := true, jumpPressed := false)
        else p
      case Box(_, _, _, _) =>
        var x := if p.vx > 0.0 then ob.x - Size else if p.vx < 0.0 then ob.x + ob.width else p.x;
        p.(x := x, vx := 0.0)
  }

  /** Resolving the same obstacle twice is the same as resolving it once. */
  lemma ResolveIdempotent(p: Player, ob: Obstacle)
    ensures Resolve(Resolve(p, ob), ob) == Resolve(p, ob)
  {
  }

  /** The track facts the generated layout has that keep a resolved player inside
      the world: a box starts at least one racer in, and either ends one racer
      before the world's end or lies past it; a platform's top is no lower than a
      racer's height under the ground line. */
  predicate LayoutOk(obs: seq<Obstacle>) {
    forall i :: 0 <= i < |obs| ==>
      && (obs[i].Box? ==> obs[i].x >= Size && (obs[i].x + obs[i].width <= WorldWidth - Size || obs[i].x >= WorldWidth))
      && (obs[i].Platform? ==> obs[i].y <= GroundY + Size)
  }

  /** The obstacle pass: each obstacle in list order acts on the player as the
      earlier ones left it. */
  function ResolveAll(p: Player, obs: seq<Obstacle>): (r: Player)
    ensures r.character == p.character && r.cooldown == p.cooldown && r.jumpTime == p.jumpTime
    ensures (forall i :: 0 <= i < |obs| ==> !Hits(p, obs[i])) ==> r == p
    ensures LayoutOk(obs) && PlayerInBounds(p) ==> PlayerInBounds(r)
    decreases |obs|
  {
    if obs == [] then p
    else
      assert forall i :: 1 <= i < |obs| ==> obs[i] == obs[1..][i - 1];
      var q := Resolve(p, obs[0]);
      assert LayoutOk(obs) ==> LayoutOk(obs[1..]);
      assert LayoutOk(obs) && PlayerInBounds(p) ==> PlayerInBounds(q);
      ResolveAll(q, obs[1..])
  }

  /** A one-obstacle pass is that obstacle's rule. */
  lemma ResolveAllOne(p: Player, ob: Obstacle)
    ensures ResolveAll(p, [ob]) == Resolve(p, ob)
  {
  }

  /** The pass over `a + b` runs `a` first and then `b` on what `a` left: obstacles
      act in list order. */
  lemma {:induction false} ResolveAllSplit(p: Player, a: seq<Obstacle>, b: seq<Obstacle>)
    ensures ResolveAll(p, a + b) == ResolveAll(ResolveAll(p, a), b)
    decreases |a|
  {
    if a != [] {
      assert (a + b)[1..] == a[1..] + b;
      ResolveAllSplit(Resolve(p, a[0]), a[1..], b);
    } else {
      assert a + b == b;
    }
  }

  /** Collisions for one tick: the item pass against the player as it stands, then
      the obstacle pass. Score and particles only grow, and collected items stay
      collected. */
  function CheckCollisions(w: World, bursts: seq<seq<real>>): (r: World)
    ensures r.npcs == w.npcs && r.obstacles == w.obstacles && r.cameraX == w.cameraX
    ensures r.player == ResolveAll(w.player, w.obstacles)
    ensures r.score == w.score + ItemPoints * CountPickable(w.player, w.items)
    ensures |r.items| == |w.items|
    ensures forall i :: 0 <= i < |w.items| ==>
      && r.items[i].(collected := w.items[i].collected) == w.items[i]
      && (r.items[i].collected <==> w.items[i].collected || TouchesItem(w.player, w.items[i]))
    ensures |r.particles| == |w.particles| + BurstSize * CountPickable(w.player, w.items)
    ensures r.particles[..|w.particles|] == w.particles
    ensures forall j :: |w.particles| <= j < |r.particles| ==> r.particles[j].life == ParticleLife
  {
    var pick := CollectItems(w.player, w.items, bursts);
    w.(player := ResolveAll(w.player, w.obstacles),
       items := pick.items,
       score := w.score + pick.points,
       particles := w.particles + pick.sparks)
  }
}

=== FILE: effects.dfy ===
/** Cosmetic particle bursts: spawned by the special ability and by item pickups,
    moved and aged once per tick, and dropped when their life runs out. */
module Effects {
  import opened Entities

  /** A particle velocity component from one `Math.random` draw: `(r - 0.5) * 6`. */
  function Jitter(r: real): (v: real)
    ensures 0.0 <= r < 1.0 ==> -3.0 <= v < 3.0
    ensures v / 6.0 + 0.5 == r
  {
    (r - 0.5) * 6.0
  }

  /** A burst of 8 particles centred on the 30 x 30 box whose corner is (x, y).
      Particle j takes draws 2j (horizontal) and 2j+1 (vertical), in the order the
      source calls `Math.random`. */
  function Burst(x: real, y: real, color: string, draws: seq<real>): (r: seq<Particle>)
    ensures |r| == BurstSize
    ensures forall j :: 0 <= j < |r| ==>
      r[j].x == x + Size / 2.0 && r[j].y == y + Size / 2.0 && r[j].color == color && r[j].life == ParticleLife
    ensures UnitDraws(draws) ==> forall j :: 0 <= j < |r| ==>
      -3.0 <= r[j].vx < 3.0 && -3.0 <= r[j].vy < 3.0
    ensures forall j :: 0 <= j < |r| ==>
      r[j].vx == Jitter(DrawAt(draws, 2 * j)) && r[j].vy == Jitter(DrawAt(draws, 2 * j + 1))
    ensures forall j :: 0 <= j < |r| ==>
      r[j].vx / 6.0 + 0.5 == DrawAt(draws, 2 * j) && r[j].vy / 6.0 + 0.5 == DrawAt(draws, 2 * j + 1)
  {
    seq(BurstSize, j requires 0 <= j =>
      Particle(x + 15.0, y + 15.0, Jitter(DrawAt(draws, 2 * j)), Jitter(DrawAt(draws, 2 * j + 1)), color, ParticleLife))
  }

  /** One tick of a particle: move by its velocity and lose one tick of life. */
  function Advance(p: Particle): Particle {
    p.(x := p.x + p.vx, y := p.y + p.vy, life := p.life - 1)
  }

  /** The inverse of `Advance`: where a particle was, and how long it had, a tick ago. */
  function Rewind(q: Particle): (p: Particle)
    ensures Advance(p) == q
  {
    q.(x := q.x - q.vx, y := q.y - q.vy, life := q.life + 1)
  }

  /** Advance every particle and keep those with life left, in their order. */
  function UpdateParticles(ps: seq<Particle>): (r: seq<Particle>)
    ensures |r| <= |ps|
    ensures forall i :: 0 <= i < |r| ==> r[i].life > 0
    ensures forall i :: 0 <= i < |ps| && ps[i].life > 1 ==> Advance(ps[i]) in r
    ensures forall q :: q in r ==> Rewind(q) in ps && Rewind(q).life > 1
  {
    if ps == [] then []
    else
      var rest := UpdateParticles(ps[1..]);
      assert forall i :: 1 <= i < |ps| ==> ps[i] == ps[1..][i - 1];
      var q := Advance(ps[0]);
      if q.life > 0 then [q] + rest else rest
  }

  /** One particle becomes its advanced self when life is left, and nothing otherwise. */
  lemma UpdateParticlesOne(p: Particle)
    ensures UpdateParticles([p]) == (if Advance(p).life > 0 then [Advance(p)] else [])
  {
  }

  /** `updateParticles` works particle by particle, in order: the update of a
      concatenation is the concatenation of the updates. */
  lemma {:induction false} UpdateParticlesSplit(a: seq<Particle>, b: seq<Particle>)
    ensures UpdateParticles(a + b) == UpdateParticles(a) + UpdateParticles(b)
    decreases |a|
  {
    if a != [] {
      assert (a + b)[0] == a[0];
      assert (a + b)[1..] == a[1..] + b;
      UpdateParticlesSplit(a[1..], b);
    } else {
      assert a + b == b;
    }
  }

  /** `n` ticks of particle updates. */
  function Age(ps: seq<Particle>, n: nat): seq<Particle>
    decreases n
  {
    if n == 0 then ps else Age(UpdateParticles(ps), n - 1)
  }

  /** Live particles (life at least 1) whose life is at most `n` are all gone
      after `n` ticks: a burst disappears within its 30-tick lifetime. */
  lemma {:induction false} Fades(ps: seq<Particle>, n: nat)
    requires forall i :: 0 <= i < |ps| ==> 1 <= ps[i].life <= n
    ensures Age(ps, n) == []
    decreases n
  {
    // with n == 0 no particle has a life in [1, 0], so ps is already empty
    if n > 0 {
      var next := UpdateParticles(ps);
      forall i | 0 <= i < |next| ensures next[i].life <= n - 1 {
        assert next[i] in next;
        assert Rewind(next[i]) in ps;
      }
      Fades(next, n - 1);
    }
  }
}

=== FILE: entities.dfy ===
/** The per-race data model: the player, the scripted opponents, the static track
    (obstacles and items), the cosmetic particles, and the world record that one
    tick of the game loop transforms. */
module Entities {
  import opened Catalog

  /** Width of the world; the goal line sits 150 before its end. */
  const WorldWidth: real := 3000.0
  const GoalX: real := WorldWidth - 150.0
  /** Every racer is a 30 x 30 box in collisions and clamps. */
  const Size: real := 30.0
  /** The ground line racers land on. */
  const GroundY: real := 520.0
  const Gravity: real := 0.8
  const TerminalFall: real := 15.0
  /** Velocity factors with no steering input: on the ground, and in the air. */
  const GroundFriction: real := 0.8
  const AirFriction: real := 0.85
  /** Upward speed of the player's jump and the extra push per held tick. */
  const JumpSpeed: real := 15.0
  const HoldBoost: real := 0.8
  /** The number of ticks a held jump key keeps pushing (`maxJumpTime`). */
  const MaxJumpTime: int := 20
  /** Ticks the special ability waits after firing. */
  const AbilityCooldown: int := 180
  /** An opponent's forward push per tick, its share of top speed, and its jump speed. */
  const NpcThrust: real := 0.2
  const NpcSpeedShare: real := 0.8
  const NpcJumpSpeed: real := 12.0
  /** Particles spawned per burst, and their lifetime in ticks. */
  const BurstSize: int := 8
  const ParticleLife: int := 30
  /** Score for a picked-up item. */
  const ItemPoints: int := 100

  /** The player: a copy of its catalog character plus kinematic and input state. */
  datatype Player = Player(
    character: Character,
    x: real, y: real,
    vx: real, vy: real,
    onGround: bool,
    cooldown: int,        // ticks until the special ability may fire again
    jumpPressed: bool,    // latch set by a jump, cleared when the key is released or on landing
    jumpTime: int)        // held-jump ticks used since the last jump

  /** A scripted opponent: a copy of its catalog character plus kinematic state. */
  datatype Npc = Npc(
    character: Character,
    x: real, y: real,
    vx: real, vy: real,
    onGround: bool)

  /** Track obstacles. A box stops horizontal motion; a platform only carries a
      racer that falls onto it. */
  datatype Obstacle =
    | Box(x: real, y: real, width: real, height: real)
    | Platform(x: real, y: real, width: real, height: real)

  datatype ItemKind = SpeedItem | JumpItem | StarItem

  datatype Item = Item(x: real, y: real, width: real, height: real, kind: ItemKind, collected: bool)

  datatype Particle = Particle(x: real, y: real, vx: real, vy: real, color: string, life: int)

  /** The player's intent for one tick: steering, the jump key, and Shift. Left
      takes precedence over right when both are held. */
  datatype Keys = Keys(left: bool, right: bool, jump: bool, shift: bool)

  /** Everything one tick of the race updates. */
  datatype World = World(
    player: Player,
    npcs: seq<Npc>,
    obstacles: seq<Obstacle>,
    items: seq<Item>,
    particles: seq<Particle>,
    score: int,
    cameraX: real)

  /** A random draw at position `i` of a supplied sequence. A position past the end
      reads 0, which `Math.random` can itself return, so when every supplied draw
      lies in [0, 1) the input describes a run the source can produce. */
  function DrawAt(draws: seq<real>, i: nat): (r: real)
    ensures UnitDraws(draws) ==> 0.0 <= r < 1.0
    ensures i < |draws| ==> r == draws[i]
  {
    if i < |draws| then draws[i] else 0.0
  }

  /** Draws of `Math.random`, which lie in [0, 1). */
  predicate UnitDraws(draws: seq<real>) {
    forall i :: 0 <= i < |draws| ==> 0.0 <= draws[i] < 1.0
  }
}

=== FILE: game.dfy ===
/** The race lifecycle and the per-frame update: a menu until a character is
    selected and the start button pressed, then one tick per frame while
    playing, frozen once a racer reaches the goal. */
module Game {
  import opened Options
  import opened Catalog
  import opened Entities
  import opened Effects
  import opened Physics
  import opened Collision
  import opened Camera
  import opened Ranking
  import opened Setup

  datatype Phase = Menu | Playing | Finished

  /** The game object. `world` is absent until the first start (the player is
      null before it); `winner` and `rank` are written when a race finishes. */
  datatype Game = Game(
    phase: Phase,
    selected: Option<string>,
    catalog: seq<Entry>,
    canvasWidth: real,
    world: Option<World>,
    winner: Option<Racer>,
    rank: int)

  /** A fresh game over a loaded catalog (from the server, or `Fallback()`). */
  function NewGame(catalog: seq<Entry>, canvasWidth: real): (g: Game)
    ensures g.phase == Menu && g.selected.None? && g.world.None? && g.winner.None? && g.rank == 0
  {
    Game(Menu, None, catalog, canvasWidth, None, None, 0)
  }

  /** The start button's test `if (this.selectedCharacter)`: a selection that is
      not the empty string. */
  predicate HasSelection(g: Game) {
    g.selected.Some? && g.selected.value != ""
  }

  /** The start button. Without a selection nothing changes. With one, the game
      enters Playing with a score of 0 and a freshly set-up race, from whatever
      phase it was in; the previous winner and rank, particles and camera stay. */
  function PressStart(g: Game, d: RaceDraws): (r: Game)
    ensures !HasSelection(g) ==> r == g
    ensures HasSelection(g) && Lookup(g.catalog, g.selected.value).Some? ==>
      && r.phase == Playing
      && r.world.Some?
      && r.world.value.score == 0
      && r.world.value.player == StartingPlayer(Lookup(g.catalog, g.selected.value).value)
      && r.world.value.npcs == Opponents(g.catalog, g.selected.value, d.npcOffsets)
      && r.(phase := g.phase, world := g.world) == g
    ensures HasSelection(g) && Lookup(g.catalog, g.selected.value).None? ==> r == g
  {
    if !HasSelection(g) then g
    else
      var particles := if g.world.Some? then g.world.value.particles else [];
      var cameraX := if g.world.Some? then g.world.value.cameraX else 0.0;
      match SetupRace(g.catalog, g.selected.value, d, particles, cameraX)
      case None => g
      case Some(w) => g.(phase := Playing, world := Some(w))
  }

  /** A character button: in any phase, the clicked button's key becomes the
      selection. */
  function Select(g: Game, key: string): (r: Game)
    ensures r.selected == Some(key)
    ensures r.(selected := g.selected) == g
  {
    g.(selected := Some(key))
  }

  /** From a fresh game, clicking a character present in the catalog and then
      the start button begins a race for that character, with no particles, the
      camera at 0 and no winner yet. */
  lemma StartFromMenu(catalog: seq<Entry>, canvasWidth: real, key: string, d: RaceDraws)
    requires key != "" && Lookup(catalog, key).Some?
    ensures var g := PressStart(Select(NewGame(catalog, canvasWidth), key), d);
      && g.phase == Playing && g.world.Some? && g.winner.None? && g.rank == 0
      && g.world.value.player == StartingPlayer(Lookup(catalog, key).value)
      && g.world.value.particles == [] && g.world.value.cameraX == 0.0
  {
  }

  /** The random draws and key state one tick consumes. `npcJumps[i]` is opponent
      i's `Math.random() < 0.008`; `abilitySparks` feeds an ability burst and
      `itemSparks[i]` the burst of item i. */
  datatype TickInput = TickInput(keys: Keys, npcJumps: seq<bool>, abilitySparks: seq<real>, itemSparks: seq<seq<real>>)

  /** The facts a running race keeps from tick to tick. */
  predicate RaceOk(w: World, canvasWidth: real) {
    && PlayerInBounds(w.player)
    && LayoutOk(w.obstacles)
    && (forall i :: 0 <= i < |w.npcs| ==> w.npcs[i].vy <= TerminalFall && w.npcs[i].y <= GroundY)
    && (forall i :: 0 <= i < |w.particles| ==> 1 <= w.particles[i].life <= ParticleLife)
    && (canvasWidth <= WorldWidth ==> 0.0 <= w.cameraX <= WorldWidth - canvasWidth)
  }

  /** One tick of a running race, in the order of `update`: player, opponents,
      camera, particles, collisions. */
  function Step(w: World, canvasWidth: real, input: TickInput): (r: World)
    ensures r.obstacles == w.obstacles
    ensures r.npcs == UpdateNpcs(w.npcs, input.npcJumps, canvasWidth)
    ensures r.score >= w.score
    ensures |r.items| == |w.items|
    ensures forall i :: 0 <= i < |w.items| ==> w.items[i].collected ==> r.items[i].collected
    ensures r.player.cooldown == UpdatePlayer(w, input.keys, input.abilitySparks).player.cooldown
    ensures r.player.jumpTime == UpdatePlayer(w, input.keys, input.abilitySparks).player.jumpTime
    ensures var w1 := UpdatePlayer(w, input.keys, input.abilitySparks);
      && r.player == ResolveAll(w1.player, w.obstacles)
      && r.cameraX == UpdateCamera(w.cameraX, w1.player.x, canvasWidth)
      && r.particles == UpdateParticles(w1.particles) + CollectItems(w1.player, w.items, input.itemSparks).sparks
  {
    var w1 := UpdatePlayer(w, input.keys, input.abilitySparks);
    var w2 := w1.(npcs := UpdateNpcs(w1.npcs, input.npcJumps, canvasWidth));
    var w3 := w2.(cameraX := UpdateCamera(w2.cameraX, w2.player.x, canvasWidth));
    var w4 := w3.(particles := UpdateParticles(w3.particles));
    CheckCollisions(w4, input.itemSparks)
  }

  /** A tick keeps the race invariant: the player's bounds, the layout, the
      opponents' bounds, particle lives and the camera range. */
  lemma StepKeepsRaceOk(w: World, canvasWidth: real, input: TickInput)
    requires RaceOk(w, canvasWidth)
    ensures RaceOk(Step(w, canvasWidth, input), canvasWidth)
  {
    var w1 := UpdatePlayer(w, input.keys, input.abilitySparks);
    var w2 := w1.(npcs := UpdateNpcs(w1.npcs, input.npcJumps, canvasWidth));
    var w3 := w2.(cameraX := UpdateCamera(w2.cameraX, w2.player.x, canvasWidth));
    var w4 := w3.(particles := UpdateParticles(w3.particles));
    assert forall i :: 0 <= i < |w1.particles| ==> 1 <= w1.particles[i].life <= ParticleLife;
    forall i | 0 <= i < |w4.particles| ensures 1 <= w4.particles[i].life < ParticleLife {
      assert w4.particles[i] in w4.particles;
      assert Rewind(w4.particles[i]) in w1.particles;
    }
    assert Step(w, canvasWidth, input) == CheckCollisions(w4, input.itemSparks);
  }

  /** `update`: nothing happens unless the game is playing. Otherwise the race
      takes one tick and the goal check may finish it, recording the first racer
      in `[player, ...npcs]` order at or past the goal line and the player's rank. */
  function Update(g: Game, input: TickInput): (r: Game)
    ensures g.phase != Playing ==> r == g
    ensures g.phase == Playing ==> r.phase == Playing || r.phase == Finished
    ensures r.(phase := g.phase, world := g.world, winner := g.winner, rank := g.rank) == g
    ensures g.phase == Playing && g.world.Some? ==>
      var w := Step(g.world.value, g.canvasWidth, input);
      && r.world == Some(w)
      && (r.phase == Finished <==> w.player.x >= GoalX || exists i :: 0 <= i < |w.npcs| && w.npcs[i].x >= GoalX)
      && (r.phase == Finished ==> r.winner.Some? && 1 <= r.rank <= 1 + |w.npcs|)
      && (r.phase == Finished ==> (r.winner == Some(ThePlayer) <==> w.player.x >= GoalX))
      && (r.phase == Finished ==> (r.rank == 1 <==> forall i :: 0 <= i < |w.npcs| ==> w.npcs[i].x <= w.player.x))
      && (r.phase == Playing ==> r.winner == g.winner && r.rank == g.rank)
      && (r.phase == Finished <==> Judge(w.player, w.npcs).Won?)
      && (r.phase == Finished ==> r.winner.Some? && Judge(w.player, w.npcs) == Won(r.winner.value, r.rank))
    ensures g.phase == Playing && g.canvasWidth < GoalX + Size && r.phase == Finished ==>
      r.winner == Some(ThePlayer)
  {
    if g.phase != Playing then g
    else match g.world
      // a playing game always has a world: the start button sets one up
      case None => g
      case Some(w) =>
        var next := Step(w, g.canvasWidth, input);
        RankCountsRivalsAhead(next.player, next.npcs);
        match Judge(next.player, next.npcs)
        case StillRacing => g.(world := Some(next))
        case Won(who, place) => g.(phase := Finished, world := Some(next), winner := Some(who), rank := place)
  }

  // ---------------------------------------------------------------- the game invariant

  /** A loaded catalog: keys are distinct (they are the keys of one object) and
      non-empty, and no character has a negative top speed or acceleration. */
  predicate CatalogOk(cat: seq<Entry>) {
    && DistinctKeys(cat)
    && NonEmptyKeys(cat)
    && forall i :: 0 <= i < |cat| ==> Sane(cat[i].character)
  }

  lemma FallbackOk()
    ensures CatalogOk(Fallback())
  {
  }

  /** With a loaded catalog the start button fields min(3, catalog - 1) opponents. */
  lemma PressStartOpponentCount(g: Game, d: RaceDraws)
    requires CatalogOk(g.catalog) && HasSelection(g) && Lookup(g.catalog, g.selected.value).Some?
    ensures PressStart(g, d).world.Some?
    ensures |PressStart(g, d).world.value.npcs| ==
      (if |g.catalog| - 1 >= MaxNpcs then MaxNpcs else |g.catalog| - 1)
  {
  }

  /** A game once started always has a race world, and that world keeps `RaceOk`. */
  predicate GameOk(g: Game) {
    && CatalogOk(g.catalog)
    && (g.phase != Menu ==> g.world.Some?)
    && (g.world.Some? ==> RaceOk(g.world.value, g.canvasWidth))
  }

  lemma NewGameOk(catalog: seq<Entry>, canvasWidth: real)
    requires CatalogOk(catalog)
    ensures GameOk(NewGame(catalog, canvasWidth))
  {
  }

  /** Starting a race with genuine random draws establishes the race invariant. */
  lemma PressStartKeepsGameOk(g: Game, d: RaceDraws)
    requires GameOk(g) && UnitRaceDraws(d)
    ensures GameOk(PressStart(g, d))
  {
  }

  lemma UpdateKeepsGameOk(g: Game, input: TickInput)
    requires GameOk(g)
    ensures GameOk(Update(g, input))
  {
    if g.phase == Playing && g.world.Some? {
      StepKeepsRaceOk(g.world.value, g.canvasWidth, input);
    }
  }

  // ---------------------------------------------------------------- runs of ticks

  /** A run of frames. */
  function Play(g: Game, inputs: seq<TickInput>): Game
    decreases |inputs|
  {
    if inputs == [] then g else Play(Update(g, inputs[0]), inputs[1..])
  }

  /** A finished race is frozen: no run of frames changes anything. */
  lemma {:induction false} FinishedIsFrozen(g: Game, inputs: seq<TickInput>)
    requires g.phase == Finished
    ensures Play(g, inputs) == g
    decreases |inputs|
  {
    if inputs != [] {
      FinishedIsFrozen(Update(g, inputs[0]), inputs[1..]);
    }
  }

  /** A run of ticks of a running race. */
  function Run(w: World, canvasWidth: real, inputs: seq<TickInput>): World
    decreases |inputs|
  {
    if inputs == [] then w else Run(Step(w, canvasWidth, inputs[0]), canvasWidth, inputs[1..])
  }

  /** The same inputs with Shift released. */
  function WithoutShift(inputs: seq<TickInput>): (r: seq<TickInput>)
    ensures |r| == |inputs|
    ensures forall i :: 0 <= i < |r| ==> r[i] == inputs[i].(keys := inputs[i].keys.(shift := false))
  {
    seq(|inputs|, i requires 0 <= i < |inputs| => inputs[i].(keys := inputs[i].keys.(shift := false)))
  }

  /** The cooldown counts down by one per tick of a run, whatever the keys, as
      long as the run is no longer than what is left of it: after a full
      cooldown it is 0, and the next Shift fires. */
  lemma {:induction false} CooldownCountsDown(w: World, canvasWidth: real, inputs: seq<TickInput>)
    requires |inputs| <= w.player.cooldown
    ensures Run(w, canvasWidth, inputs).player.cooldown == w.player.cooldown - |inputs|
    decreases |inputs|
  {
    if inputs != [] {
      CooldownCountsDown(Step(w, canvasWidth, inputs[0]), canvasWidth, inputs[1..]);
    }
  }

  /** One tick while cooling: Shift is ignored and the cooldown drops by one. */
  lemma ShiftIgnoredOnce(w: World, canvasWidth: real, input: TickInput)
    requires w.player.cooldown > 0
    ensures Step(w, canvasWidth, input) == Step(w, canvasWidth, input.(keys := input.keys.(shift := false)))
    ensures Step(w, canvasWidth, input).player.cooldown == w.player.cooldown - 1
  {
    assert !AbilityFires(w.player, input.keys.shift);
  }

  /** While the cooldown lasts, Shift does nothing at all: a run as long as the
      remaining cooldown ends exactly where the same run without Shift ends. */
  lemma {:induction false} ShiftIgnoredWhileCooling(w: World, canvasWidth: real, inputs: seq<TickInput>)
    requires |inputs| <= w.player.cooldown
    ensures Run(w, canvasWidth, inputs) == Run(w, canvasWidth, WithoutShift(inputs))
    decreases |inputs|
  {
    if inputs != [] {
      var plain := WithoutShift(inputs);
      assert plain[0] == inputs[0].(keys := inputs[0].keys.(shift := false));
      assert plain[1..] == WithoutShift(inputs[1..]);
      ShiftIgnoredOnce(w, canvasWidth, inputs[0]);
      ShiftIgnoredWhileCooling(Step(w, canvasWidth, inputs[0]), canvasWidth, inputs[1..]);
    }
  }

  /** No tick of the run starts a jump. */
  predicate NoJumpStarts(w: World, canvasWidth: real, inputs: seq<TickInput>)
    decreases |inputs|
  {
    inputs == [] ||
      (!JumpFires(w.player, inputs[0].keys.jump) && NoJumpStarts(Step(w, canvasWidth, inputs[0]), canvasWidth, inputs[1..]))
  }

  /** The ticks of a run on which a held jump got its extra push. */
  function Extensions(w: World, canvasWidth: real, inputs: seq<TickInput>): nat
    decreases |inputs|
  {
    if inputs == [] then 0
    else (if Extends(w.player, inputs[0].keys.jump) then 1 else 0) + Extensions(Step(w, canvasWidth, inputs[0]), canvasWidth, inputs[1..])
  }

  /** Between two jump starts the held-jump push is applied at most `MaxJumpTime`
      times in all: every push counts one more use, and no use is given back
      until the next start. (A start itself uses the first push.) */
  lemma {:induction false} ExtensionsBounded(w: World, canvasWidth: real, inputs: seq<TickInput>)
    requires 0 <= w.player.jumpTime <= MaxJumpTime
    requires NoJumpStarts(w, canvasWidth, inputs)
    ensures w.player.jumpTime + Extensions(w, canvasWidth, inputs) == Run(w, canvasWidth, inputs).player.jumpTime
    ensures Extensions(w, canvasWidth, inputs) <= MaxJumpTime - w.player.jumpTime
    decreases |inputs|
  {
    if inputs != [] {
      var next := Step(w, canvasWidth, inputs[0]);
      ExtensionsBounded(next, canvasWidth, inputs[1..]);
    }
  }
}

=== FILE: options.dfy ===
/** The optional-value wrapper used for the selected character, the race world
    (absent until the first start) and the winner reference (absent until a finish). */
module Options {

  datatype Option<+T> = None | Some(value: T)
}

=== FILE: physics.dfy ===
/** The per-tick kinematics: the player's steering, jump, special ability,
    gravity and clamps, and the scripted opponents' simpler variant. */
module Physics {
  import opened RealMath
  import opened Catalog
  import opened Entities
  import Effects

  // ---------------------------------------------------------------- steering

  /** The player's horizontal velocity after steering. Left (then right) adds
      the character's acceleration toward that side, stopping at top speed; with
      neither key, friction scales the velocity by 0.8 on the ground and by 0.85
      in the air. */
  function Steer(p: Player, left: bool, right: bool): (vx: real)
    ensures Sane(p.character) && -p.character.maxSpeed <= p.vx <= p.character.maxSpeed ==>
      -p.character.maxSpeed <= vx <= p.character.maxSpeed
    ensures left ==> vx >= -p.character.maxSpeed
    ensures left && p.character.acceleration >= 0.0 && p.vx >= -p.character.maxSpeed ==> vx <= p.vx
    ensures !left && right ==> vx <= p.character.maxSpeed
    ensures !left && right && p.character.acceleration >= 0.0 && p.vx <= p.character.maxSpeed ==> vx >= p.vx
    ensures left && p.vx - p.character.acceleration >= -p.character.maxSpeed ==> vx == p.vx - p.character.acceleration
    ensures left && p.vx - p.character.acceleration < -p.character.maxSpeed ==> vx == -p.character.maxSpeed
    ensures !left && right && p.vx + p.character.acceleration <= p.character.maxSpeed ==> vx == p.vx + p.character.acceleration
    ensures !left && right && p.vx + p.character.acceleration > p.character.maxSpeed ==> vx == p.character.maxSpeed
    ensures !left && !right ==> Abs(vx) <= Abs(p.vx) && (vx < 0.0 <==> p.vx < 0.0) && (vx > 0.0 <==> p.vx > 0.0)
    ensures !left && !right && p.onGround ==> vx == GroundFriction * p.vx
    ensures !left && !right && !p.onGround ==> vx == AirFriction * p.vx
  {
    var top := p.character.maxSpeed;
    if left then
      var v := p.vx - p.character.acceleration;
      if v < -top then -top else v
    else if right then
      var v := p.vx + p.character.acceleration;
      if v > top then top else v
    else if p.onGround then p.vx * GroundFriction
    else p.vx * AirFriction
  }

  /** `n` ticks of holding right, with nothing else changing the player. */
  function HoldRight(p: Player, n: nat): (r: Player)
    decreases n
  {
    if n == 0 then p else HoldRight(p.(vx := Steer(p, false, true)), n - 1)
  }

  /** Holding right never pushes past top speed, and reaches it once the ticks
      held times the acceleration cover the gap to it. */
  lemma {:induction false} HoldRightReachesTop(p: Player, n: nat)
    requires Sane(p.character) && -p.character.maxSpeed <= p.vx <= p.character.maxSpeed
    ensures HoldRight(p, n).vx <= p.character.maxSpeed
    ensures HoldRight(p, n).vx >= p.vx
    ensures (n as real) * p.character.acceleration >= p.character.maxSpeed - p.vx ==>
      HoldRight(p, n).vx == p.character.maxSpeed
    decreases n
  {
    if n > 0 {
      var q := p.(vx := Steer(p, false, true));
      HoldRightReachesTop(q, n - 1);
      assert HoldRight(p, n) == HoldRight(q, n - 1);
      var a := p.character.acceleration;
      if (n as real) * a >= p.character.maxSpeed - p.vx {
        if p.vx + a > p.character.maxSpeed {
          assert q.vx == p.character.maxSpeed;
          assert ((n - 1) as real) * a >= 0.0;
        } else {
          assert q.vx == p.vx + a;
          assert ((n - 1) as real) * a == (n as real) * a - a;
        }
      }
    }
  }

  // ---------------------------------------------------------------- jumping

  /** A jump starts on the tick the key is held, the latch is clear and the
      player stands on something. */
  predicate JumpFires(p: Player, key: bool) {
    key && !p.jumpPressed && p.onGround
  }

  /** A held jump keeps pushing while the latch is set, fewer than `MaxJumpTime`
      pushes were used, and the player still rises. */
  predicate Extends(p: Player, key: bool) {
    key && p.jumpPressed && p.jumpTime < MaxJumpTime && p.vy < 0.0
  }

  /** The jump part of a tick: start a jump on a fresh press, extend it while
      held, and clear the latch when the key is up. */
  function Jump(p: Player, key: bool): (r: Player)
    ensures JumpFires(p, key) ==>
      r.vy == -JumpSpeed - HoldBoost && r.jumpTime == 1 && r.jumpPressed && !r.onGround
    ensures !JumpFires(p, key) && Extends(p, key) ==>
      r.vy == p.vy - HoldBoost && r.jumpTime == p.jumpTime + 1 && r.onGround == p.onGround
    ensures !JumpFires(p, key) && !Extends(p, key) ==>
      r.vy == p.vy && r.jumpTime == p.jumpTime && r.onGround == p.onGround
    ensures key ==> r.jumpPressed == (p.jumpPressed || p.onGround)
    ensures !key ==> !r.jumpPressed
    ensures 0 <= p.jumpTime <= MaxJumpTime ==> 0 <= r.jumpTime <= MaxJumpTime
    ensures r.(vy := p.vy, onGround := p.onGround, jumpPressed := p.jumpPressed, jumpTime := p.jumpTime) == p
  {
    var started := if JumpFires(p, key)
      then p.(vy := -JumpSpeed, onGround := false, jumpPressed := true, jumpTime := 0)
      else p;
    var held := if Extends(started, key)
      then started.(vy := started.vy - HoldBoost, jumpTime := started.jumpTime + 1)
      else started;
    if !key then held.(jumpPressed := false) else held
  }

  // ---------------------------------------------------------------- special ability

  /** Shift fires the special ability only when its cooldown has run out. */
  predicate AbilityFires(p: Player, shift: bool) {
    shift && p.cooldown <= 0
  }

  /** The score an ability adds. Only mischief (+50) and fashion (+30) score; the
      speed abilities have no effect on the modelled state. */
  function Bonus(a: Ability): (points: int)
    ensures points >= 0
    ensures points > 0 <==> a == Mischief || a == Fashion
  {
    match a
    case Mischief => 50
    case Fashion => 30
    case _ => 0
  }

  /** The ability part of a tick: on firing, score the ability, spawn a burst at
      the player and restart the cooldown; then count the cooldown down by one. */
  function Special(w: World, shift: bool, sparks: seq<real>): (r: World)
    ensures AbilityFires(w.player, shift) ==>
      && r.player.cooldown == AbilityCooldown - 1
      && r.score == w.score + Bonus(w.player.character.ability)
      && r.particles == w.particles + Effects.Burst(w.player.x, w.player.y, w.player.character.color, sparks)
    ensures !AbilityFires(w.player, shift) ==>
      && r.score == w.score
      && r.particles == w.particles
      && r.player.cooldown == (if w.player.cooldown > 0 then w.player.cooldown - 1 else w.player.cooldown)
    ensures w.player.cooldown >= 0 ==> r.player.cooldown >= 0
    ensures 0 <= w.player.cooldown < AbilityCooldown ==> 0 <= r.player.cooldown < AbilityCooldown
    ensures r.player.(cooldown := w.player.cooldown) == w.player
    ensures r.(player := w.player, score := w.score, particles := w.particles) == w
  {
    var p := w.player;
    var fired := if AbilityFires(p, shift)
      then w.(player := p.(cooldown := AbilityCooldown),
              score := w.score + Bonus(p.character.ability),
              particles := w.particles + Effects.Burst(p.x, p.y, p.character.color, sparks))
      else w;
    var c := fired.player.cooldown;
    fired.(player := fired.player.(cooldown := if c > 0 then c - 1 else c))
  }

  // ---------------------------------------------------------------- gravity and clamps

  /** The vertical speed after gravity, capped at the terminal fall speed. */
  function Fallen(vy: real): (r: real)
    ensures r <= TerminalFall
    ensures vy + Gravity <= TerminalFall ==> r == vy + Gravity
    ensures vy + Gravity > TerminalFall ==> r == TerminalFall
  {
    if vy + Gravity > TerminalFall then TerminalFall else vy + Gravity
  }

  /** The ground clamp fires when the integrated position sinks below the ground. */
  predicate Lands(y: real, vy: real) {
    y + Fallen(vy) > GroundY
  }

  /** Gravity, one Euler step, the ground clamp and the world-bound clamp on x. */
  function Fall(p: Player): (r: Player)
    ensures r.vy <= TerminalFall && r.y <= GroundY
    ensures 0.0 <= r.x <= WorldWidth - Size
    ensures 0.0 <= p.x + p.vx <= WorldWidth - Size ==> r.x == p.x + p.vx
    ensures p.x + p.vx < 0.0 ==> r.x == 0.0
    ensures p.x + p.vx > WorldWidth - Size ==> r.x == WorldWidth - Size
    ensures Lands(p.y, p.vy) ==> r.y == GroundY && r.vy == 0.0 && r.onGround && !r.jumpPressed
    ensures !Lands(p.y, p.vy) ==>
      r.vy == Fallen(p.vy) && r.y == p.y + r.vy && r.onGround == p.onGround && r.jumpPressed == p.jumpPressed
    ensures r.(x := p.x, y := p.y, vy := p.vy, onGround := p.onGround, jumpPressed := p.jumpPressed) == p
  {
    var vy := Fallen(p.vy);
    var moved := p.(x := p.x + p.vx, y := p.y + vy, vy := vy);
    var grounded := if moved.y > GroundY
      then moved.(y := GroundY, vy := 0.0, onGround := true, jumpPressed := false)
      else moved;
    grounded.(x := JsClamp(grounded.x, 0.0, WorldWidth - Size))
  }

  // ---------------------------------------------------------------- the player's tick

  /** The kinematic bounds the player keeps from tick to tick. */
  predicate PlayerInBounds(p: Player) {
    && Sane(p.character)
    && -p.character.maxSpeed <= p.vx <= p.character.maxSpeed
    && p.vy <= TerminalFall
    && p.y <= GroundY
    && 0.0 <= p.x <= WorldWidth - Size
    && 0 <= p.cooldown < AbilityCooldown
    && 0 <= p.jumpTime <= MaxJumpTime
  }

  /** One tick of the player: steering, jump, special ability, cooldown, then
      gravity and the clamps. The rest of the world is left as it was. */
  function UpdatePlayer(w: World, keys: Keys, sparks: seq<real>): (r: World)
    ensures r.npcs == w.npcs && r.obstacles == w.obstacles && r.items == w.items && r.cameraX == w.cameraX
    ensures r.player.character == w.player.character
    ensures r.player.vy <= TerminalFall && r.player.y <= GroundY
    ensures 0.0 <= r.player.x <= WorldWidth - Size
    ensures Sane(w.player.character) && -w.player.character.maxSpeed <= w.player.vx <= w.player.character.maxSpeed ==>
      -w.player.character.maxSpeed <= r.player.vx <= w.player.character.maxSpeed
    ensures JumpFires(w.player, keys.jump) && w.player.y <= GroundY ==>
      r.player.vy == -JumpSpeed && r.player.jumpTime == 1 && r.player.jumpPressed && !r.player.onGround
    ensures !keys.jump ==> !r.player.jumpPressed
    ensures !JumpFires(w.player, keys.jump) ==>
      r.player.jumpTime == (if Extends(w.player, keys.jump) then w.player.jumpTime + 1 else w.player.jumpTime)
    ensures 0 <= w.player.jumpTime <= MaxJumpTime ==> 0 <= r.player.jumpTime <= MaxJumpTime
    ensures AbilityFires(w.player, keys.shift) ==>
      && r.player.cooldown == AbilityCooldown - 1
      && r.score == w.score + Bonus(w.player.character.ability)
      && r.particles == w.particles + Effects.Burst(w.player.x, w.player.y, w.player.character.color, sparks)
    ensures !AbilityFires(w.player, keys.shift) ==>
      && r.score == w.score
      && r.particles == w.particles
      && r.player.cooldown == (if w.player.cooldown > 0 then w.player.cooldown - 1 else w.player.cooldown)
    ensures PlayerInBounds(w.player) ==> PlayerInBounds(r.player)
    ensures r.player.vx == Steer(w.player, keys.left, keys.right)
    ensures r.player.x == JsClamp(w.player.x + r.player.vx, 0.0, WorldWidth - Size)
    ensures var j := Jump(w.player.(vx := Steer(w.player, keys.left, keys.right)), keys.jump);
      && (Lands(j.y, j.vy) ==> r.player.y == GroundY && r.player.vy == 0.0 && r.player.onGround && !r.player.jumpPressed)
      && (!Lands(j.y, j.vy) ==> r.player.vy == Fallen(j.vy) && r.player.y == j.y + r.player.vy)
      && (!Lands(j.y, j.vy) ==> r.player.onGround == j.onGround && r.player.jumpPressed == j.jumpPressed)
  {
    var p := w.player;
    var steered := p.(vx := Steer(p, keys.left, keys.right));
    var jumped := Jump(steered, keys.jump);
    var w1 := Special(w.(player := jumped), keys.shift, sparks);
    w1.(player := Fall(w1.player))
  }

  // ---------------------------------------------------------------- opponents

  /** An opponent's top speed: 80% of its character's. */
  function NpcTop(n: Npc): real {
    n.character.maxSpeed * NpcSpeedShare
  }

  /** One tick of an opponent. Its ground flag is forced on before the jump test,
      so a jump draw launches it even in mid-air; it always pushes forward up to
      its top speed; and its x is clamped to the canvas width, not the world's. */
  function UpdateNpc(n: Npc, jump: bool, canvasWidth: real): (r: Npc)
    ensures r.character == n.character
    ensures r.vy <= TerminalFall && r.y <= GroundY
    ensures 0.0 <= r.x <= Max(0.0, canvasWidth - Size)
    ensures r.vx <= NpcTop(n)
    ensures n.vx <= NpcTop(n) ==> r.vx >= n.vx
    ensures n.vx + NpcThrust <= NpcTop(n) ==> r.vx == n.vx + NpcThrust
    ensures n.vx + NpcThrust > NpcTop(n) ==> r.vx == NpcTop(n)
    ensures 0.0 <= n.x + r.vx <= canvasWidth - Size ==> r.x == n.x + r.vx
    ensures n.x + r.vx > canvasWidth - Size >= 0.0 ==> r.x == canvasWidth - Size
    ensures n.x + r.vx < 0.0 || canvasWidth - Size < 0.0 ==> r.x == 0.0
    ensures jump && n.y <= GroundY ==> r.y == n.y + r.vy
    ensures jump && n.y <= GroundY ==> r.vy == Gravity - NpcJumpSpeed && !r.onGround
    ensures !jump ==> r.onGround
    ensures !jump && Lands(n.y, n.vy) ==> r.y == GroundY && r.vy == 0.0
    ensures !jump && !Lands(n.y, n.vy) ==> r.vy == Fallen(n.vy) && r.y == n.y + r.vy
  {
    var grounded := n.(onGround := true);
    var pushed := grounded.(vx := Min(grounded.vx + NpcThrust, NpcTop(grounded)));
    var launched := if jump && pushed.onGround
      then pushed.(vy := -NpcJumpSpeed, onGround := false)
      else pushed;
    var vy := Fallen(launched.vy);
    var moved := launched.(x := launched.x + launched.vx, y := launched.y + vy, vy := vy);
    var landed := if moved.y > GroundY then moved.(y := GroundY, vy := 0.0, onGround := true) else moved;
    landed.(x := JsClamp(landed.x, 0.0, canvasWidth - Size))
  }

  /** The jump draw for opponent `i`; a missing draw is a draw that did not jump. */
  function JumpDraw(jumps: seq<bool>, i: nat): bool {
    i < |jumps| && jumps[i]
  }

  /** Every opponent takes its own tick with its own jump draw. On a canvas
      narrower than the goal line plus one racer, no opponent can reach the goal. */
  function UpdateNpcs(ns: seq<Npc>, jumps: seq<bool>, canvasWidth: real): (r: seq<Npc>)
    ensures |r| == |ns|
    ensures forall i :: 0 <= i < |r| ==> r[i] == UpdateNpc(ns[i], JumpDraw(jumps, i), canvasWidth)
    ensures forall i :: 0 <= i < |r| ==> r[i].vy <= TerminalFall && r[i].y <= GroundY
    ensures canvasWidth < GoalX + Size ==> forall i :: 0 <= i < |r| ==> r[i].x < GoalX
  {
    seq(|ns|, i requires 0 <= i < |ns| => UpdateNpc(ns[i], JumpDraw(jumps, i), canvasWidth))
  }
}

=== FILE: ranking.dfy ===
/** The goal check: who crossed the goal line first, and the player's place when
    all racers are ordered by x, furthest first, by a stable sort. */
module Ranking {
  import opened Options
  import opened Entities

  /** A racer reference: the player, or the opponent at an index of the list. */
  datatype Racer = ThePlayer | Opponent(index: nat)

  /** A racer's x at the moment of the goal check. */
  datatype Standing = Standing(who: Racer, x: real)

  /** A racer's position in the list `[player, ...npcs]`. */
  function Order(r: Racer): nat {
    match r
    case ThePlayer => 0
    case Opponent(i) => i + 1
  }

  function NpcStandings(npcs: seq<Npc>): (s: seq<Standing>)
    ensures |s| == |npcs|
    ensures forall i :: 0 <= i < |s| ==> s[i] == Standing(Opponent(i), npcs[i].x)
  {
    seq(|npcs|, i requires 0 <= i < |npcs| => Standing(Opponent(i), npcs[i].x))
  }

  /** The racers in the order the goal check scans them: the player, then the opponents. */
  function Standings(p: Player, npcs: seq<Npc>): (s: seq<Standing>)
    ensures |s| == |npcs| + 1
    ensures s[0] == Standing(ThePlayer, p.x) && s[1..] == NpcStandings(npcs)
  {
    [Standing(ThePlayer, p.x)] + NpcStandings(npcs)
  }

  // ---------------------------------------------------------------- the finisher

  /** The index of the first racer at or past the goal line, if any. */
  function FirstFinisher(s: seq<Standing>): (r: Option<nat>)
    ensures r.None? <==> forall i :: 0 <= i < |s| ==> s[i].x < GoalX
    ensures r.Some? ==> r.value < |s| && s[r.value].x >= GoalX
    ensures r.Some? ==> forall j :: 0 <= j < r.value ==> s[j].x < GoalX
  {
    if s == [] then None
    else if s[0].x >= GoalX then Some(0)
    else
      assert forall i :: 1 <= i < |s| ==> s[i] == s[1..][i - 1];
      match FirstFinisher(s[1..])
      case None => None
      case Some(k) => Some(k + 1)
  }

  // ---------------------------------------------------------------- the stable sort

  /** `a` comes before `b` in a stable sort by x, furthest first: further ahead,
      or level and earlier in the list. */
  predicate Before(a: Standing, b: Standing) {
    a.x > b.x || (a.x == b.x && Order(a.who) < Order(b.who))
  }

  /** Sorted by x descending with ties in list order. */
  predicate StableDesc(s: seq<Standing>) {
    forall i, j :: 0 <= i < j < |s| ==> Before(s[i], s[j])
  }

  /** The racers appear in list order (as `Standings` builds them). */
  predicate InListOrder(s: seq<Standing>) {
    forall i, j :: 0 <= i < j < |s| ==> Order(s[i].who) < Order(s[j].who)
  }

  /** `a` comes before every element of `s`. */
  predicate AllBehind(a: Standing, s: seq<Standing>) {
    forall k :: 0 <= k < |s| ==> Before(a, s[k])
  }

  /** Every racer in `s` comes after `a` in the list. */
  predicate AllLater(a: Standing, s: seq<Standing>) {
    forall k :: 0 <= k < |s| ==> Order(a.who) < Order(s[k].who)
  }

  lemma AllBehindPermuted(a: Standing, s: seq<Standing>, u: seq<Standing>)
    requires multiset(s) == multiset(u) && AllBehind(a, u)
    ensures AllBehind(a, s)
  {
    forall k | 0 <= k < |s| ensures Before(a, s[k]) {
      assert s[k] in multiset(u);
      var m :| 0 <= m < |u| && u[m] == s[k];
    }
  }

  lemma AllLaterPermuted(a: Standing, s: seq<Standing>, u: seq<Standing>)
    requires multiset(s) == multiset(u) && AllLater(a, u)
    ensures AllLater(a, s)
  {
    forall k | 0 <= k < |s| ensures Order(a.who) < Order(s[k].who) {
      assert s[k] in multiset(u);
      var m :| 0 <= m < |u| && u[m] == s[k];
    }
  }

  /** Insert `e` before the first element that is not further ahead than it. */
  function Insert(e: Standing, t: seq<Standing>): (r: seq<Standing>)
    ensures multiset(r) == multiset([e] + t)
  {
    if t == [] || e.x >= t[0].x then [e] + t
    else
      assert t == [t[0]] + t[1..];
      [t[0]] + Insert(e, t[1..])
  }

  /** Putting a racer that comes before all of a stably sorted sequence in front
      keeps it stably sorted. */
  lemma ConsStable(a: Standing, t: seq<Standing>)
    requires StableDesc(t) && AllBehind(a, t)
    ensures StableDesc([a] + t)
  {
  }

  /** Inserting a racer that comes later in the list than everyone in a stably
      sorted sequence keeps it stably sorted. */
  lemma {:induction false} InsertStable(e: Standing, t: seq<Standing>)
    requires StableDesc(t) && AllLater(e, t)
    ensures StableDesc(Insert(e, t))
  {
    if t == [] || e.x >= t[0].x {
      assert AllBehind(e, t) by {
        forall k | 0 <= k < |t| ensures Before(e, t[k]) {
          assert k == 0 || Before(t[0], t[k]);
        }
      }
      ConsStable(e, t);
    } else {
      var tail := t[1..];
      assert forall k :: 0 <= k < |tail| ==> tail[k] == t[k + 1];
      assert StableDesc(tail) && AllLater(e, tail);
      InsertStable(e, tail);
      var rest := Insert(e, tail);
      assert AllBehind(t[0], [e] + tail) by {
        forall k | 0 <= k < |[e] + tail| ensures Before(t[0], ([e] + tail)[k]) {
          if k > 0 { assert ([e] + tail)[k] == t[k]; }
        }
      }
      AllBehindPermuted(t[0], rest, [e] + tail);
      ConsStable(t[0], rest);
    }
  }

  /** Insertion sort by x, furthest first. It is stable: racers that are level
      keep their list order, as with `Array.prototype.sort`. */
  function SortDesc(s: seq<Standing>): (r: seq<Standing>)
    ensures multiset(r) == multiset(s)
    ensures |r| == |s|
    ensures InListOrder(s) ==> StableDesc(r)
  {
    if s == [] then []
    else
      assert s == [s[0]] + s[1..];
      var rest := SortDesc(s[1..]);
      if InListOrder(s) then
        assert forall k :: 0 <= k < |s[1..]| ==> s[1..][k] == s[k + 1];
        assert InListOrder(s[1..]) && AllLater(s[0], s[1..]);
        AllLaterPermuted(s[0], rest, s[1..]);
        InsertStable(s[0], rest);
        assert |multiset(Insert(s[0], rest))| == |multiset(s)|;
        Insert(s[0], rest)
      else
        assert |multiset(Insert(s[0], rest))| == |multiset(s)|;
        Insert(s[0], rest)
  }

  // ---------------------------------------------------------------- the player's rank

  /** The number of racers strictly further ahead than x. */
  function CountAbove(s: seq<Standing>, x: real): (n: nat)
    ensures n <= |s|
    ensures n == 0 <==> forall i :: 0 <= i < |s| ==> s[i].x <= x
  {
    if s == [] then 0
    else
      assert forall i :: 1 <= i < |s| ==> s[i] == s[1..][i - 1];
      (if s[0].x > x then 1 else 0) + CountAbove(s[1..], x)
  }

  /** `findIndex(c => c === player)`: the first index holding the player, or -1. */
  function FindPlayer(s: seq<Standing>): (r: int)
    ensures -1 <= r < |s|
    ensures r >= 0 ==> s[r].who == ThePlayer && forall j :: 0 <= j < r ==> s[j].who != ThePlayer
    ensures r == -1 <==> forall j :: 0 <= j < |s| ==> s[j].who != ThePlayer
  {
    if s == [] then -1
    else if s[0].who == ThePlayer then 0
    else
      assert forall i :: 1 <= i < |s| ==> s[i] == s[1..][i - 1];
      var k := FindPlayer(s[1..]);
      if k < 0 then -1 else k + 1
  }

  lemma {:induction false} CountSplit(u: seq<Standing>, v: seq<Standing>, x: real)
    ensures CountAbove(u + v, x) == CountAbove(u, x) + CountAbove(v, x)
    decreases |u|
  {
    if u == [] {
      assert u + v == v;
    } else {
      assert (u + v)[1..] == u[1..] + v;
      CountSplit(u[1..], v, x);
    }
  }

  /** Taking out the racer at j removes exactly it from the field... */
  lemma RemoveAtMultiset(b: seq<Standing>, j: nat)
    requires j < |b|
    ensures multiset(b[..j] + b[j + 1..]) == multiset(b) - multiset{b[j]}
  {
    assert b == b[..j] + [b[j]] + b[j + 1..];
  }

  /** ...and from the count ahead of x exactly its own contribution. */
  lemma RemoveAtCount(b: seq<Standing>, j: nat, x: real)
    requires j < |b|
    ensures CountAbove(b, x) == CountAbove(b[..j] + b[j + 1..], x) + (if b[j].x > x then 1 else 0)
  {
    assert b == b[..j] + ([b[j]] + b[j + 1..]);
    CountSplit(b[..j], [b[j]] + b[j + 1..], x);
    CountSplit(b[..j], b[j + 1..], x);
    assert ([b[j]] + b[j + 1..])[1..] == b[j + 1..];
  }

  /** How many racers are strictly ahead of x depends only on who is racing,
      not on their order: in particular sorting does not change it. */
  lemma {:induction false} CountPermuted(a: seq<Standing>, b: seq<Standing>, x: real)
    requires multiset(a) == multiset(b)
    ensures CountAbove(a, x) == CountAbove(b, x)
    decreases |a|
  {
    if a == [] {
      assert |b| == |multiset(b)| == 0;
    } else {
      assert a[0] in multiset(b);
      var j :| 0 <= j < |b| && b[j] == a[0];
      RemoveAtMultiset(b, j);
      assert a == [a[0]] + a[1..];
      assert multiset(a[1..]) == multiset(a) - multiset{a[0]};
      CountPermuted(a[1..], b[..j] + b[j + 1..], x);
      RemoveAtCount(b, j, x);
    }
  }

  /** Inserting the player into opponents sorted furthest first puts it right
      after those strictly ahead of it: it wins every tie. */
  lemma {:induction false} InsertPlayerPosition(x: real, t: seq<Standing>)
    requires StableDesc(t)
    requires forall k :: 0 <= k < |t| ==> t[k].who != ThePlayer
    ensures FindPlayer(Insert(Standing(ThePlayer, x), t)) == CountAbove(t, x)
  {
    var e := Standing(ThePlayer, x);
    if t == [] || x >= t[0].x {
      forall k | 0 <= k < |t| ensures t[k].x <= x {
        assert k == 0 || Before(t[0], t[k]);
      }
    } else {
      assert StableDesc(t[1..]) by {
        assert forall k :: 0 <= k < |t[1..]| ==> t[1..][k] == t[k + 1];
      }
      InsertPlayerPosition(x, t[1..]);
      assert Insert(e, t)[1..] == Insert(e, t[1..]);
    }
  }

  /** `playerRank`: one more than the player's index after sorting all racers
      by x, furthest first. */
  function Rank(p: Player, npcs: seq<Npc>): int {
    FindPlayer(SortDesc(Standings(p, npcs))) + 1
  }

  /** The sorted standings are the sorted opponents with the player inserted. */
  lemma SortedStandings(p: Player, npcs: seq<Npc>)
    ensures SortDesc(Standings(p, npcs)) == Insert(Standing(ThePlayer, p.x), SortDesc(NpcStandings(npcs)))
    ensures StableDesc(SortDesc(NpcStandings(npcs)))
    ensures forall k :: 0 <= k < |SortDesc(NpcStandings(npcs))| ==> SortDesc(NpcStandings(npcs))[k].who != ThePlayer
  {
    var rivals := NpcStandings(npcs);
    assert InListOrder(rivals);
    var sorted := SortDesc(rivals);
    forall k | 0 <= k < |sorted| ensures sorted[k].who != ThePlayer {
      assert sorted[k] in multiset(rivals);
    }
    assert Standings(p, npcs)[1..] == rivals;
  }

  /** The player's rank is one more than the number of opponents strictly ahead
      of it; so it lies in [1, 1 + |npcs|] and is 1 exactly when no opponent is
      further ahead (ties go to the player). */
  lemma RankCountsRivalsAhead(p: Player, npcs: seq<Npc>)
    ensures Rank(p, npcs) == 1 + CountAbove(NpcStandings(npcs), p.x)
    ensures 1 <= Rank(p, npcs) <= 1 + |npcs|
    ensures Rank(p, npcs) == 1 <==> forall i :: 0 <= i < |npcs| ==> npcs[i].x <= p.x
  {
    var rivals := NpcStandings(npcs);
    var sorted := SortDesc(rivals);
    SortedStandings(p, npcs);
    InsertPlayerPosition(p.x, sorted);
    CountPermuted(sorted, rivals, p.x);
    if CountAbove(rivals, p.x) == 0 {
      assert forall i :: 0 <= i < |npcs| ==> rivals[i].x == npcs[i].x;
    }
  }

  // ---------------------------------------------------------------- the verdict

  datatype Verdict = StillRacing | Won(winner: Racer, rank: int)

  /** `checkGoal`: the first racer in list order at or past the goal line wins,
      and the player's rank is taken from the sorted standings. */
  function Judge(p: Player, npcs: seq<Npc>): (v: Verdict)
    ensures v.StillRacing? <==> p.x < GoalX && forall i :: 0 <= i < |npcs| ==> npcs[i].x < GoalX
    ensures v.Won? ==> (v.winner == ThePlayer <==> p.x >= GoalX)
    ensures v.Won? && v.winner.Opponent? ==>
      && v.winner.index < |npcs|
      && npcs[v.winner.index].x >= GoalX
      && p.x < GoalX
      && forall j :: 0 <= j < v.winner.index ==> npcs[j].x < GoalX
    ensures v.Won? ==> v.rank == Rank(p, npcs)
  {
    var s := Standings(p, npcs);
    JudgeScan(p, npcs);
    match FirstFinisher(s)
    case None => StillRacing
    case Some(i) => Won(s[i].who, Rank(p, npcs))
  }

  /** How the scan of `Standings` reads in terms of the player and the opponents. */
  lemma JudgeScan(p: Player, npcs: seq<Npc>)
    ensures var f := FirstFinisher(Standings(p, npcs));
      && (f.None? <==> p.x < GoalX && forall i :: 0 <= i < |npcs| ==> npcs[i].x < GoalX)
      && (f == Some(0) <==> p.x >= GoalX)
      && (f.Some? && f.value > 0 ==>
          && Standings(p, npcs)[f.value].who == Opponent(f.value - 1)
          && npcs[f.value - 1].x >= GoalX
          && p.x < GoalX
          && forall j :: 0 <= j < f.value - 1 ==> npcs[j].x < GoalX)
  {
  }
}

=== FILE: realmath.dfy ===
/** Real-valued helpers matching the JavaScript `Math` calls of the game loop. */
module RealMath {

  function Min(a: real, b: real): (r: real)
    ensures r <= a && r <= b
    ensures r == a || r == b
  {
    if a <= b then a else b
  }

  function Max(a: real, b: real): (r: real)
    ensures r >= a && r >= b
    ensures r == a || r == b
  {
    if a >= b then a else b
  }

  function Abs(a: real): (r: real)
    ensures r >= 0.0
    ensures r == a || r == -a
  {
    if a < 0.0 then -a else a
  }

  /** `Math.max(lo, Math.min(hi, v))`: the clamp the game applies to positions and
      to the camera. When the bounds cross (hi < lo) the lower bound wins, as in
      the source. */
  function JsClamp(v: real, lo: real, hi: real): (r: real)
    ensures lo <= hi ==> lo <= r <= hi
    ensures lo <= v <= hi ==> r == v
    ensures v < lo ==> r == lo
    ensures lo <= hi < v ==> r == hi
    ensures hi < lo ==> r == lo
  {
    Max(lo, Min(hi, v))
  }
}

=== FILE: scenarios.dfy ===
/** Concrete ticks that pin down behaviour where a reader might expect otherwise. */
module Scenarios {
  import opened Options
  import opened Catalog
  import opened Entities
  import opened Physics
  import opened Collision
  import opened Camera

  function Tama(): Character {
    Fallback()[5].character
  }

  /** A box at x = 400: a player moving right whose box reaches x = 371 is put
      back against the box's left side, at 370, and stopped. */
  lemma BoxStopsPlayer()
    ensures var p := Player(Tama(), 371.0, 490.0, 5.0, 0.0, true, 0, false, 0);
      var r := Resolve(p, Box(400.0, 490.0, 30.0, 30.0));
      r.x == 370.0 && r.vx == 0.0 && r.y == 490.0
  {
  }

  /** The platform test reads the player's y after this tick's move: a player
      whose top is already 5 below the platform's top is not caught. */
  lemma SunkPlayerFallsThroughPlatform()
    ensures var p := Player(Tama(), 100.0, 405.0, 0.0, 10.0, false, 0, false, 0);
      var ob := Platform(90.0, 400.0, 80.0, 20.0);
      Hits(p, ob) && Resolve(p, ob) == p
  {
  }

  /** A falling player above the platform's top is snapped onto it. */
  lemma FallingPlayerLandsOnPlatform()
    ensures var p := Player(Tama(), 100.0, 395.0, 0.0, 10.0, false, 0, true, 3);
      var r := Resolve(p, Platform(90.0, 400.0, 80.0, 20.0));
      r.y == 370.0 && r.vy == 0.0 && r.onGround && !r.jumpPressed
  {
  }

  /** Player at 1000, canvas 900 wide, camera at 0: the target is 700 and the
      camera moves a tenth of the way, to 70. */
  lemma CameraFirstStep()
    ensures UpdateCamera(0.0, 1000.0, 900.0) == 70.0
  {
  }

  /** The ground flag is not cleared when the player walks off a platform, so a
      player falling past the platform's edge still counts as standing and may
      start a jump in mid-air. */
  lemma WalkingOffAPlatformKeepsTheGroundFlag()
    ensures var w := World(Player(Tama(), 200.0, 370.0, 2.0, 0.0, true, 0, false, 0), [], [], [], [], 0, 0.0);
      var r := UpdatePlayer(w, Keys(false, false, false, false), []);
      r.player.onGround && r.player.vy > 0.0 && JumpFires(r.player, true)
  {
  }

  /** An opponent in mid-air still jumps on a jump draw. */
  lemma OpponentJumpsInMidAir()
    ensures var n := Npc(Tama(), 300.0, 400.0, 1.0, -5.0, false);
      UpdateNpc(n, true, 1200.0).vy == Gravity - NpcJumpSpeed
  {
  }
}

=== FILE: setup.dfy ===
/** Race setup: the player and up to three opponents from the catalog, and the
    randomly jittered track of boxes, platforms and items. Every `Math.random`
    draw is an input. */
module Setup {
  import opened Options
  import opened Catalog
  import opened Entities
  import opened Collision

  /** Loop counts of the generators: `i < worldWidth / 200`, `/ 300` and `/ 150`
      with a world 3000 wide. */
  const BoxCount: nat := 15
  const PlatformCount: nat := 10
  const ItemCount: nat := 20
  /** At most this many opponents race. */
  const MaxNpcs: nat := 3

  /** The player at the start line: at rest, on the ground, no cooldown, no jump. */
  function StartingPlayer(c: Character): (p: Player)
    ensures p.character == c && p.x == 50.0 && p.y == 300.0
    ensures p.vx == 0.0 && p.vy == 0.0 && p.onGround
    ensures p.cooldown == 0 && !p.jumpPressed && p.jumpTime == 0
  {
    Player(c, 50.0, 300.0, 0.0, 0.0, true, 0, false, 0)
  }

  predicate NonEmptyKeys(cat: seq<Entry>) {
    forall i :: 0 <= i < |cat| ==> cat[i].key != ""
  }

  /** Opponent slots `slot` to 2: slot i takes the i-th other character, if there is
      one and its key is not empty, and starts it 30 below the previous slot with
      a random offset of up to 30 along x. */
  function SpawnNpcs(others: seq<Entry>, offsets: seq<real>, slot: nat): (r: seq<Npc>)
    requires slot <= MaxNpcs
    ensures |r| <= MaxNpcs - slot
    ensures forall j :: 0 <= j < |r| ==> r[j].vx == 0.0 && r[j].vy == 0.0 && r[j].onGround
    ensures forall j :: 0 <= j < |r| ==> 330.0 + 30.0 * (slot as real) <= r[j].y <= 390.0
    ensures UnitDraws(offsets) ==> forall j :: 0 <= j < |r| ==> 50.0 <= r[j].x < 80.0
    ensures NonEmptyKeys(others) ==>
      && |r| == (if |others| <= slot then 0 else if |others| >= MaxNpcs then MaxNpcs - slot else |others| - slot)
      && forall j :: 0 <= j < |r| ==>
           r[j].character == others[slot + j].character && r[j].y == 330.0 + 30.0 * ((slot + j) as real)
    decreases MaxNpcs - slot
  {
    if slot == MaxNpcs then []
    else
      var rest := SpawnNpcs(others, offsets, slot + 1);
      if slot < |others| && others[slot].key != "" then
        var npc := Npc(others[slot].character, 50.0 + DrawAt(offsets, slot) * 30.0,
                       330.0 + (slot as real) * 30.0, 0.0, 0.0, true);
        [npc] + rest
      else rest
  }

  /** The opponents of a race: the first three characters other than the selected one. */
  function Opponents(cat: seq<Entry>, key: string, offsets: seq<real>): (r: seq<Npc>)
    ensures |r| <= MaxNpcs
    ensures DistinctKeys(cat) && NonEmptyKeys(cat) && Lookup(cat, key).Some? ==>
      |r| == (if |cat| - 1 >= MaxNpcs then MaxNpcs else |cat| - 1)
    ensures NonEmptyKeys(cat) ==> |r| <= |Others(cat, key)| && forall j :: 0 <= j < |r| ==>
      r[j].character == Others(cat, key)[j].character
  {
    var others := Others(cat, key);
    assert DistinctKeys(cat) && Lookup(cat, key).Some? ==> |others| == |cat| - 1 by {
      if DistinctKeys(cat) { OthersCount(cat, key); }
    }
    assert NonEmptyKeys(cat) ==> NonEmptyKeys(others) by {
      if NonEmptyKeys(cat) {
        forall i | 0 <= i < |others| ensures others[i].key != "" {
          assert others[i] in cat;
        }
      }
    }
    SpawnNpcs(others, offsets, 0)
  }

  /** The opponents are the first characters of the catalog with the selected
      one cut out, in catalog order. */
  lemma OpponentsInCatalogOrder(cat: seq<Entry>, key: string, offsets: seq<real>, k: nat)
    requires DistinctKeys(cat) && NonEmptyKeys(cat) && k < |cat| && cat[k].key == key
    ensures var r := Opponents(cat, key, offsets);
      forall j :: 0 <= j < |r| ==> r[j].character == (if j < k then cat[j] else cat[j + 1]).character
  {
    var r := Opponents(cat, key, offsets);
    var others := Others(cat, key);
    OthersSkips(cat, key, k);
    assert forall j :: 0 <= j < |others| ==> others[j] == (if j < k then cat[j] else cat[j + 1]);
    assert |r| <= |others| && forall j :: 0 <= j < |r| ==> r[j].character == others[j].character;
  }

  /** The track's obstacles: 15 boxes on the ground, then 10 floating platforms. */
  function GenerateObstacles(boxDraws: seq<real>, platformDraws: seq<real>): (obs: seq<Obstacle>)
    ensures |obs| == BoxCount + PlatformCount
    ensures forall i :: 0 <= i < BoxCount ==>
      obs[i].Box? && obs[i].y == 490.0 && obs[i].width == 30.0 && obs[i].height == 30.0
    ensures forall i :: BoxCount <= i < |obs| ==>
      obs[i].Platform? && obs[i].width == 80.0 && obs[i].height == 20.0
    ensures UnitDraws(boxDraws) ==> forall i :: 0 <= i < BoxCount ==>
      400.0 + 200.0 * (i as real) <= obs[i].x < 480.0 + 200.0 * (i as real)
    ensures UnitDraws(platformDraws) ==> forall i :: BoxCount <= i < |obs| ==>
      && 300.0 + 300.0 * ((i - BoxCount) as real) <= obs[i].x < 400.0 + 300.0 * ((i - BoxCount) as real)
      && 350.0 <= obs[i].y < 450.0
    ensures UnitDraws(boxDraws) && UnitDraws(platformDraws) ==> LayoutOk(obs)
  {
    var boxes := seq(BoxCount, i requires 0 <= i =>
      Box(400.0 + (i as real) * 200.0 + DrawAt(boxDraws, i) * 80.0, 490.0, 30.0, 30.0));
    var platforms := seq(PlatformCount, k requires 0 <= k =>
      Platform(300.0 + (k as real) * 300.0 + DrawAt(platformDraws, 2 * k) * 100.0,
               350.0 + DrawAt(platformDraws, 2 * k + 1) * 100.0, 80.0, 20.0));
    boxes + platforms
  }

  /** `['speed', 'jump', 'star'][Math.floor(r * 3)]`. (A draw outside [0, 1) would
      index outside the list; the model reads a negative draw as speed and a
      draw of 1 or more as a star.) */
  function KindOf(r: real): (k: ItemKind)
    ensures 0.0 <= r < 1.0 / 3.0 ==> k == SpeedItem
    ensures 1.0 / 3.0 <= r < 2.0 / 3.0 ==> k == JumpItem
    ensures 2.0 / 3.0 <= r < 1.0 ==> k == StarItem
  {
    var slot := (r * 3.0).Floor;
    if slot <= 0 then SpeedItem else if slot == 1 then JumpItem else StarItem
  }

  /** The track's 20 items, one per 150 of track, all uncollected. Item i takes
      draws 3i (x), 3i+1 (y) and 3i+2 (kind). */
  function GenerateItems(draws: seq<real>): (items: seq<Item>)
    ensures |items| == ItemCount
    ensures forall i :: 0 <= i < |items| ==>
      !items[i].collected && items[i].width == 20.0 && items[i].height == 20.0
    ensures UnitDraws(draws) ==> forall i :: 0 <= i < |items| ==>
      && 250.0 + 150.0 * (i as real) <= items[i].x < 300.0 + 150.0 * (i as real)
      && 250.0 <= items[i].y < 450.0
  {
    seq(ItemCount, i requires 0 <= i =>
      Item(250.0 + (i as real) * 150.0 + DrawAt(draws, 3 * i) * 50.0,
           250.0 + DrawAt(draws, 3 * i + 1) * 200.0,
           20.0, 20.0, KindOf(DrawAt(draws, 3 * i + 2)), false))
  }

  /** The random draws race setup consumes. */
  datatype RaceDraws = RaceDraws(npcOffsets: seq<real>, boxes: seq<real>, platforms: seq<real>, items: seq<real>)

  predicate UnitRaceDraws(d: RaceDraws) {
    UnitDraws(d.npcOffsets) && UnitDraws(d.boxes) && UnitDraws(d.platforms) && UnitDraws(d.items)
  }

  /** `setupRace` for the selected key. Particles and the camera carry over from
      before; the score is reset by the caller. None when the key is not in the
      catalog. */
  function SetupRace(cat: seq<Entry>, key: string, d: RaceDraws, particles: seq<Particle>, cameraX: real): (r: Option<World>)
    ensures r.None? <==> Lookup(cat, key).None?
    ensures r.Some? ==> Lookup(cat, key).Some? && r.value.player == StartingPlayer(Lookup(cat, key).value)
    ensures r.Some? ==> r.value.score == 0 && r.value.particles == particles && r.value.cameraX == cameraX
    ensures r.Some? ==> |r.value.npcs| <= MaxNpcs && forall j :: 0 <= j < |r.value.npcs| ==>
      r.value.npcs[j].vx == 0.0 && r.value.npcs[j].vy == 0.0 && r.value.npcs[j].onGround && r.value.npcs[j].y <= GroundY
    ensures r.Some? ==> |r.value.obstacles| == BoxCount + PlatformCount && |r.value.items| == ItemCount
    ensures r.Some? ==> forall i :: 0 <= i < |r.value.items| ==> !r.value.items[i].collected
    ensures r.Some? && UnitRaceDraws(d) ==> LayoutOk(r.value.obstacles)
  {
    match Lookup(cat, key)
    case None => None
    case Some(c) =>
      Some(World(StartingPlayer(c), Opponents(cat, key, d.npcOffsets),
                 GenerateObstacles(d.boxes, d.platforms), GenerateItems(d.items), particles, 0, cameraX))
  }
}
